=== FILE: README.md ===
# Chrome audio transcriber: a verified model of the capture, delivery and transcript core

The extension records a tab's audio (and, optionally, the microphone) in its
side panel. It cuts the stream into overlapping windows, encodes each window
as a 16-bit mono WAVE file and sends it to the background service worker.
The worker queues the windows and sends each one to a speech service. It
retries failures with exponential backoff and waits out rate-limit answers.
Windows whose last attempt fails with a `TypeError` (typically no connectivity) are parked in a small
offline store, base64-encoded. The side panel shows the transcripts that
come back, with their time stamps, and keeps them in a transcript log.

This project models that core in Dafny and proves properties of it:

- `assembler.dfy`: the per-chunk window assembler of a capture path (`trimQueueToLimit`, `concatFloat32`, the `port.onmessage` step).
- `capture.dfy`: the hand-off of forwarded windows as `TRANSCRIBE_CHUNK` messages for the tab and microphone paths.
- `wav.dfy`: `encodeWav`, with a decoder as its partner.
- `clock.dfy`: `fmtClock`, with a parser as its partner.
- `base64.dfy`: `arrayBufferToBase64` and `base64ToArrayBuffer` (section 4 of RFC 4648).
- `retry_delay.dfy`: `parseRetryDelayMs`, including the `/(\d+)s/` match.
- `retry.dfy`: `transcribeWithRetry` over a scripted service.
- `offline_store.dfy`: `addFailed` and `FAILED_CAP`.
- `worker.dfy`: the queue, the `TRANSCRIBE_CHUNK` and `PROCESS_STORED` handlers, the patched `queue.push`, and `processQueue`.
- `messages.dfy`: the runtime message shapes and the worker's status texts.
- `sink.dfy`: the side panel's `TRANSCRIPT_RESULT` listener.
- `decimal.dfy`, `seqs.dfy`, `arith.dfy`, `wrappers.dfy`, `bytes.dfy`: shared helpers (digit strings, suffixes, division facts, `Option`, bytes).

The speech service is a parameter. It is a script: the list of outcomes its
successive requests yield. Each outcome is a transcript, a rate-limit answer
with its error body, or a failure. A failure is either a `TypeError` or any
other error. A `TypeError` is what `fetch` throws on a network failure or a
bad request header, or what reading a 200 response throws in two cases: its
`parts` is present but has no callable `map` (an object, a string or a
number), or `parts` is an array holding a `null` or `undefined` entry
(background.js:233). The worker parks every such item offline. Any other
error is a non-2xx HTTP status or a body that is not JSON. A missing
`parts` (or `candidates`, or `content`) throws nothing and yields the
transcript "(no text)" (background.js:234). Waits are recorded as events
rather than elapsing. Message passing delivers each message's fields
unchanged. Each message handler, and each item's processing, is one atomic
step.

The overlap, as the code has it: each chunk is pushed onto the overlap list
and the list is trimmed to `OVERLAP_SEC` seconds BEFORE the body is tested
and the window cut (sidepanel.js:246-255). A window's lead-in is therefore
the last `OVERLAP_SEC` seconds of the stream up to and including the chunk
that completed it. Once the body holds at least `OVERLAP_SEC` seconds, that
lead-in is the tail of the window's own body: those samples appear twice in
the window's PCM, and nothing of the previous window is carried over
(`Assembler.Step`, `Assembler.RunOverlap`). The source's own comments call
this a "fixed 3s overlap" holding the "last ~3s" (sidepanel.js:16 and 25).

## Model

| member | source | states |
|---|---|---|
| Assembler.Concat | sidepanel.js:68-74 | the concatenation holds as many samples as the chunks together |
| Assembler.ConcatAppend | sidepanel.js:68-74 | concatenating two chunk lists is concatenating their concatenations |
| Assembler.TrimLoop | sidepanel.js:78-90 | each iteration shifts off a front chunk no longer than what is left to trim, or cuts the front chunk to its suffix; when the count is the true total, the result has exactly `toTrim` fewer samples, its samples are the input's without their first `toTrim`, its count matches, and only the front was touched |
| Assembler.TrimQueueToLimit | sidepanel.js:75-92 | the result keeps exactly the last `min(count, limit)` samples and its count is their number; a queue within the limit is returned unchanged |
| Assembler.Step | sidepanel.js:241-281 | a window is emitted iff the body reaches `WINDOW_SEC * sr` samples; it gets the next number, starts at `(id - 1) * WINDOW_SEC`, spans `OVERLAP_SEC + WINDOW_SEC`, and is forwarded iff `id % SEND_EVERY_N == 0`; its samples are the trimmed overlap, then the body, then the chunk; the body then empties, the overlap becomes the last `3 * sr` samples of the stream, and the counts stay consistent |
| Assembler.RunTracks | sidepanel.js:246-251 | after any chunks the counts are consistent and the overlap's samples are the last `OVERLAP_SEC * sr` samples of the whole stream |
| Assembler.RunOverlap | sidepanel.js:246-251 | after any chunks, the overlap holds exactly the last `min(total, OVERLAP_SEC * sr)` samples seen, with consistent counts |
| Assembler.RunNumbering | sidepanel.js:257-264 | windows are numbered 1, 2, 3, ... with no gaps; window i+1 spans `[i * W, i * W + 3 + W]` and is forwarded iff `(i + 1) % N == 0`, so a skipped window still uses up its number and its slot |
| Assembler.UniformChunks | sidepanel.js:253-254 | with equal chunks and a window of k chunks, exactly one window is emitted per k chunks; the body's count is that of the chunks since the last window, and the body is exactly those chunks |
| Capture.WindowMessage | sidepanel.js:266-274 | the message carries the window's number, `audio/wav`, a binary payload, the path's name and the window's span (what the payload decodes to is `Capture.WindowMessageDecodes`) |
| Capture.WindowMessageDecodes | sidepanel.js:266-274 | the bytes of a window's message decode back to the window's rate and samples |
| Capture.CaptureStep | sidepanel.js:335-361 | a path sends a message iff the step emits a window that the sampling rule forwards, and the message is that window's; the buffers follow the assembler's step |
| Capture.RunSends | sidepanel.js:254-276 | the messages a path sends over a run are exactly those of the forwarded windows, in order |
| Capture.ForwardedSchedule | sidepanel.js:263 | among windows 1..k, the forwarded ones number `k / N`, and the j-th is window `(j + 1) * N` |
| Capture.MessagesSchedule | sidepanel.js:259-274 | the j-th message sent is for window `(j + 1) * N`, with that window's start, end and the path's name |
| Capture.OneInN | sidepanel.js:352-355 | a path that has emitted k windows has sent `k / N` messages, the j-th for window `(j + 1) * N` with its own span |
| Capture.NeverSentWhenZero | sidepanel.js:263 | with `SEND_EVERY_N` 0 the test `id % 0 !== 0` always holds, so nothing is ever sent |
| Wav.U32 | sidepanel.js:52 | `setUint32` stores a value in `[0, 2^32)` that is congruent to its argument modulo 2^32, and the argument itself when it fits |
| Wav.EncodeSamples | sidepanel.js:40-45 | each sample is written as two little-endian bytes at offset `2 * i` and reads back as itself |
| Wav.EncodeWav | sidepanel.js:46-67 | the buffer is `44 + 2n` bytes; RIFF/WAVE/fmt /data tags; RIFF size `36 + 2n`; PCM, mono, 16-bit; rate and byte rate `2 * rate` modulo 2^32; data size `2n`; sample i at offset `44 + 2i` |
| Wav.HeaderFields | sidepanel.js:51-63 | each header field reads back as the value written at its offset |
| Wav.SamplesRoundTrip | sidepanel.js:40-45 | decoding the sample bytes gives back the samples |
| Wav.SamplesOfDecoded | sidepanel.js:40-45 | every even-length byte run is the encoding of its decoded samples |
| Wav.WavRoundTrip | sidepanel.js:46-67 | decoding an encoded buffer gives back the rate and every sample, when the rate fits 32 bits |
| Wav.DecodedReencodes | sidepanel.js:46-67 | a buffer the decoder accepts is exactly the encoding of what it decodes to |
| Clock.JsRemainder | sidepanel.js:37 | JavaScript's `%` takes the sign of the dividend |
| Clock.PadStart2 | sidepanel.js:37 | `padStart(2, '0')` ends with the original string, preceded only by '0's, and is two characters long or the original length if that is longer; so a string of two or more characters is returned unchanged |
| Clock.FmtClock | sidepanel.js:37 | for non-negative seconds the text has at least five characters, with ':' before a two-character seconds field; what it denotes is `Clock.ClockRoundTrip`, its width `Clock.ClockWidth` |
| Clock.FmtClockOfNat | sidepanel.js:37 | for non-negative seconds the clock is the padded minutes, ':', then the padded seconds below 60 |
| Clock.ClockRoundTrip | sidepanel.js:37 | reading the clock text back gives the number of seconds formatted |
| Clock.FieldsRoundTrip | sidepanel.js:37 | padded minutes and seconds joined by ':' read back as `60 * m + s` |
| Clock.ClockWidth | sidepanel.js:37 | below 100 minutes the clock is exactly "mm:ss" |
| Decimal.NatToString | background.js:183 | the decimal spelling of a number is a non-empty digit run of that value, without leading zeros |
| Decimal.IntToString | sidepanel.js:391 | a negative number is a minus sign before the digits of its magnitude |
| RetryDelay.FindRetryInfo | background.js:36 | `find` returns the first entry whose `@type` contains `RetryInfo`, and none iff no entry does |
| RetryDelay.RunEnd | background.js:38 | the end of the longest digit run from a position |
| RetryDelay.SecondsAtRunEnd | background.js:38 | a `\d+` group followed by 's' must end where the digit run ends |
| RetryDelay.FirstMatch | background.js:38 | `exec` finds the leftmost position with digits followed by 's', and no match starts earlier |
| RetryDelay.SecondsGroup | background.js:38 | the captured group is a non-empty digit run |
| RetryDelay.ParseRetryDelayMs | background.js:32-43 | 60 000 ms when the body does not parse or has no RetryInfo entry |
| RetryDelay.ParseCases | background.js:32-43 | the result is 1000 times the group's value when the first RetryInfo entry's delay matches, and 60 000 otherwise |
| RetryDelay.WholeSeconds | background.js:37-39 | a delay written "<n>s" waits n seconds |
| RetryDelay.FractionalDelay | background.js:38-39 | "1.5s" waits 5 s: the leftmost digits followed by 's' are the fraction's |
| RetryDelay.OnlyFirstRetryInfo | background.js:36 | an entry before the first RetryInfo entry does not affect the delay |
| Retry.NoticeSecs | background.js:176 | the announced seconds are at least 1; below 1.5 s they are exactly 1; from 0.5 s on they are the delay rounded to the nearest second, within half a second either way |
| Retry.Loop | background.js:169-194 | the loop consumes at most the script, and its result is the last outcome it consumed |
| Retry.Attempts | background.js:186 | an answer is an attempt iff it is in the script and is not a rate limit; there are no more attempts than answers |
| Retry.TranscribeWithRetry | background.js:169-194 | it consumes at most the script; a transcript or a give-up is the last answer it consumed, a running-out consumed all; the full policy is `Retry.RetryPolicy` |
| Retry.LoopPolicy | background.js:169-194 | from attempt i, the loop transcribes iff one of the remaining attempts succeeds after only failures, returning that text; it gives up iff all remaining attempts fail, with the last error |
| Retry.LoopWaits | background.js:175-191 | the backoffs are the doubling schedule from the current delay, one per failed attempt that is not the last; the other events are a notice and a wait for each rate-limit answer consumed, in order |
| Retry.RetryPolicy | background.js:169-194 | the first successful attempt among three delivers its text after the backoffs `[1000, 2000]` before it; three failed attempts give up with the third error after backoffs 1000 and 2000; every rate-limit answer is announced and waited out without using an attempt |
| Retry.RateLimitedThenSuccess | background.js:175-187 | any number of rate-limit answers before a success still succeed, in the same attempt, and only their waits are recorded |
| Retry.NoticeOfWholeSeconds | background.js:176 | a delay of n whole seconds is announced as n (at least 1) |
| Retry.ThreeFailures | background.js:189-191 | three failures give up with the third error after waits of 1000 and 2000 ms |
| OfflineStore.EvictOldest | background.js:111 | the oldest entries are shifted off until at most `FAILED_CAP` remain: the last ten |
| OfflineStore.AddFailed | background.js:103-113 | the store grows by the item at its end and keeps at most ten entries, the newest |
| OfflineStore.AddFailedKeeps | background.js:110-111 | a property of every entry and of the new item holds of every entry afterwards |
| OfflineStore.AddAllKeepsNewest | background.js:97-113 | after any number of failures the store holds the newest ten items seen, oldest first |
| OfflineStore.FifteenFailures | background.js:111 | fifteen failures into an empty store leave the last ten |
| Base64.SextetChar | background.js:93 | each 6-bit value has an alphabet character, and it decodes back to that value |
| Base64.CharSextetInverse | background.js:117 | a character that decodes is the one character spelling its value |
| Base64.EncodeGroup | background.js:93 | three bytes become four characters |
| Base64.Encode | background.js:89-94 | the text is `4 * ceil(n / 3)` characters |
| Base64.GroupRoundTrip | background.js:116-122 | a quad decodes to the three bytes it encodes |
| Base64.RoundTrip | background.js:116-122 | decoding the encoding gives back the bytes |
| Base64.Canonical | background.js:116-122 | a text the decoder accepts is exactly the encoding of what it decodes to |
| Base64.Decode | background.js:116-122 | an accepted text is `4 * ceil(n / 3)` characters for the n bytes it decodes to; `Base64.RoundTrip` and `Base64.Canonical` make it the inverse of `Base64.Encode` |
| Messages.SourceOr | background.js:53 | a missing or empty source becomes "tab"; any other is kept |
| Messages.NoticeText | background.js:183 | the rate-limit notice starts with the hourglass mark |
| Messages.FailedText | background.js:162 | the failure result starts with the cross mark |
| Messages.IsStatusText | sidepanel.js:383 | the side panel's status test: a text starting with the hourglass, package or cross mark; the worker's texts pass it by `Messages.WorkerTextsAreStatus` |
| Messages.WorkerTextsAreStatus | background.js:150-183 | every status text the worker sends (lines 150, 162 and 183) passes the side panel's status test |
| Worker.ItemOf | background.js:49-56 | the queued item keeps the number, type, bytes and timing, with the source defaulted to "tab" |
| Worker.Restore | background.js:254-262 | the patched push decodes string bytes from base64 and keeps binary bytes; a string that does not decode makes the push fail |
| Worker.Stored | background.js:106-109 | the stored form is the item with its bytes in base64 |
| Worker.StoredRestores | background.js:106-122 | a stored item restores to itself |
| Worker.StartLoop | background.js:76 | after a replay that pushed every stored item onto an empty queue, the loop count grows by one iff the queue is then non-empty, and otherwise stays (a loop started on an empty queue ends at once, background.js:126); `Worker.ReplayValid` keeps it at most one loop |
| Worker.Enqueue | background.js:47-60 | the restored item is appended; a loop starts iff the queue was empty; a failed decode changes nothing |
| Worker.PushAll | background.js:75 | pushes every stored item, restored and in order, unless one fails to decode |
| Worker.Replay | background.js:71-80 | the store is cleared; the live queue is kept and followed by the stored items, each restored, in stored order; a loop starts iff the queue was empty and the store was not |
| Worker.Tag | background.js:131-138 | each result carries the item's number, source and timing |
| Worker.Sent | background.js:177-184 | one item's messages are a notice per entry of the report's notices, tagged with the item, then exactly one final; `Worker.AdvanceNotices` ties those entries to the rate-limit answers |
| Worker.Advance | background.js:125-167 | the head item leaves the queue with exactly one final from the retry outcome; it is parked in the store only when stored offline; the loop ends when the queue empties; the step is enabled unless the script runs out; the report's notices are those of the retry loop's events, the script loses exactly the answers the loop consumed, and the loop's events are appended |
| Worker.AdvanceNotices | background.js:175-184 | the notices sent for an item are one per rate-limit answer its retry loop consumed, in order, each announcing `max(1, round(delay / 1000))` of that answer's delay |
| Worker.Initial | background.js:45 | the empty worker satisfies the invariant |
| Worker.EnqueueValid | background.js:57 | enqueueing keeps "one loop iff the queue is non-empty" and the store invariant |
| Worker.ReplayValid | background.js:71-80 | replay from a valid state restores every stored item and keeps the invariant |
| Worker.ParkedDecodable | background.js:103-113 | parking an item keeps every stored entry decodable |
| Worker.AdvanceValid | background.js:125-167 | processing an item keeps the invariant, so there is never a second loop |
| Worker.ParkedItemReturns | background.js:140-154 | an item parked offline comes back with its original bytes at the end of the queue on the next replay |
| Worker.ItemOutcome | background.js:140-165 | an item is parked iff three attempts failed and the third with a `TypeError`; it fails with the service's message iff the third failed otherwise; otherwise it is delivered |
| Worker.Drain | background.js:125-167 | the loop processes items in queue order, one report and one final each; the messages are exactly the reports' notices and finals; it stops early only when the script runs out |
| Worker.DrainCons | background.js:126-139 | a processed head item followed by a drain of the rest is a drain of the whole queue |
| Sink.Record | sidepanel.js:388-392 | the entry keeps the message's number and text, its source ("tab" when empty), and its own start and end or else window `seq`'s start `(seq - 1) * WINDOW_SEC` and an end `OVERLAP_SEC + WINDOW_SEC` later |
| Sink.Receive | sidepanel.js:380-394 | a status text adds no record; any other text appends exactly one record with the message's number, text and source ("tab" when empty), and with its timing or window `seq`'s span; the log only grows, line by line |
| Sink.ReceiveAllAppend | sidepanel.js:380-394 | receiving two message lists one after the other is receiving their concatenation |
| Sink.StatusNotRecorded | sidepanel.js:383-387 | status lines never reach the transcript log |
| Sink.ItemRecords | sidepanel.js:380-394 | everything the worker sends for one item adds one record iff the final is a delivered transcript that does not start with a status mark, and none otherwise |
| Sink.WindowToRecord | sidepanel.js:388-392 | a window sent by a path and delivered is recorded with its number, the path's name and its own span |
| Sink.DefaultTimingIsWindowSpan | sidepanel.js:388-389 | without timing, the listener gives a message the span the capture step gave the window of that number |
| Sink.MarkedTranscriptDropped | sidepanel.js:383 | a transcript that starts with the cross mark is shown as a status line and never recorded |

## Left out

- The audio worklet (worklet.js), the Web Audio graph and the Chrome tab-capture, side-panel, storage and messaging APIs are not modelled. Chunks arrive as sample sequences, the stores are values, and messages are values delivered unchanged. In particular `Worker.Restore`'s binary case assumes that the `ArrayBuffer` a capture path puts in `bytes` (sidepanel.js:270) reaches the worker intact through `chrome.runtime.sendMessage`, which serialises its message and may not preserve an `ArrayBuffer`; that assumption is not checked here.
- Float32 samples and their quantisation in `floatTo16BitPCM` (clamping, scaling, truncation) are left out. The assembler is generic in the sample type, and the WAVE path takes already-quantised 16-bit samples.
- `transcribeGemini`, `getApiKey` with its fallback key, the HTTP request, and the JSON parsing of the response and the error body are left out. The service is a script of outcomes, and an error body is given as already parsed (unparsable, or its `details` list).
- `setTimeout` waits are recorded as events. The asynchronous interleaving of handlers with a running `processQueue` (its `await`s) is not modelled: each handler and each item's processing is atomic.
- Worker.Advance: requires the head item to hold binary bytes. The patched push guarantees this, and `Worker.Valid` carries it. When the service's script runs out mid-retry, the step is not enabled.
- Worker.Drain: bounded by an iteration count, and it stops when the script runs out. An unbounded service is not modelled.
- Base64.Decode: is strict padded RFC 4648 decoding. `atob`'s leniency (ASCII whitespace, missing padding, non-zero trailing bits) is not modelled, because the store only ever holds `btoa` output.
- RetryDelay.ParseRetryDelayMs: reads the digit group as an unbounded integer. JavaScript `Number` loses precision beyond 2^53 ms.
- Clock.FmtClock: is modelled on integer seconds. The side panel passes only whole-second window bounds; fractional input is not modelled.
- The buffers' configuration (`WINDOW_SEC`, `SEND_EVERY_N`, the sample rate) is fixed for a run. Changing the selectors mid-capture is not modelled.
- The UI (buttons, timer, status line, JSON export, the skip/sent log lines of the capture paths) is left out. So are the no-op second `PROCESS_STORED` listener and the pass-through `queue.shift` patch, which change nothing.
- `SET_API_KEY` is not modelled: it stores the key and does not touch the core.

=== FILE: arith.dfy ===
/** Facts about integer division and multiplication that the solver does
    not find on its own. */
module Arith {
  lemma CountUp(n: nat, k: nat)
    requires k > 0
    ensures n % k + 1 == k ==> (n + 1) % k == 0 && (n + 1) / k == n / k + 1 && n + 1 == (n / k + 1) * k
    ensures n % k + 1 < k ==> (n + 1) % k == n % k + 1 && (n + 1) / k == n / k
  {
    var q, m := n / k, n % k;
    assert n == k * q + m;
    if m + 1 == k {
      assert n + 1 == k * (q + 1) + 0;
      DivModUnique(n + 1, k, q + 1, 0);
    } else {
      DivModUnique(n + 1, k, q, m + 1);
    }
  }

  /** Division with remainder has one answer. */
  lemma DivModUnique(x: int, k: int, q: int, r: int)
    requires k > 0 && 0 <= r < k && x == k * q + r
    ensures x / k == q && x % k == r
  {
    var q', r' := x / k, x % k;
    assert x == k * q' + r';
    if q > q' {
      MulAtLeast(k, q - q');
    } else if q < q' {
      MulAtLeast(k, q' - q);
    }
  }

  lemma MulAtLeast(k: int, d: int)
    requires k > 0 && d >= 1
    ensures k * d >= k
  {
  }

  lemma MulSucc(m: nat, c: nat)
    ensures (m + 1) * c == m * c + c
  {
  }

  lemma ScaleLess(a: nat, b: nat, c: nat)
    requires a < b && c > 0
    ensures a * c < b * c
  {
  }
}

=== FILE: assembler.dfy ===
/** The window assembler of sidepanel.js: every audio chunk is appended to a
    body list and to an overlap list; the overlap list is trimmed from the
    front to the last `OverlapSec` seconds; once the body holds a window's
    worth of samples, the overlap followed by the body is emitted as one
    window and the body is cleared. Samples are an abstract type `T`: the
    assembler only moves them. The tab path and the microphone path run this
    same step, each on its own `Buffers`. */
module Assembler {
  import opened Wrappers
  import opened Arith
  import opened Seqs

  /** `OVERLAP_SEC`: the lead-in carried into every window, in seconds. */
  const OverlapSec: nat := 3

  /** Sum of the chunk lengths (the `reduce` at the top of `concatFloat32`). */
  function TotalLength<T>(chunks: seq<seq<T>>): nat
  {
    if |chunks| == 0 then 0 else |chunks[0]| + TotalLength(chunks[1..])
  }

  /** `concatFloat32`: the samples of every chunk, chunk after chunk. */
  function Concat<T>(chunks: seq<seq<T>>): (r: seq<T>)
    ensures |r| == TotalLength(chunks)
  {
    if |chunks| == 0 then [] else chunks[0] + Concat(chunks[1..])
  }

  /** `r` is `q` with whole chunks dropped from the front and, possibly, the
      new front chunk cut down to one of its suffixes; the rest untouched. */
  ghost predicate FrontTrimmed<T>(q: seq<seq<T>>, r: seq<seq<T>>)
  {
    && |r| <= |q|
    && (|r| > 0 ==> r[1..] == q[|q| - |r| + 1..] && IsSuffix(r[0], q[|q| - |r|]))
  }

  lemma {:induction false} ConcatAppend<T>(a: seq<seq<T>>, b: seq<seq<T>>)
    ensures Concat(a + b) == Concat(a) + Concat(b)
    decreases |a|
  {
    if |a| == 0 {
      assert a + b == b;
    } else {
      assert (a + b)[1..] == a[1..] + b;
      ConcatAppend(a[1..], b);
    }
  }

  lemma ConcatSnoc<T>(a: seq<seq<T>>, c: seq<T>)
    ensures Concat(a + [c]) == Concat(a) + c
  {
    ConcatAppend(a, [c]);
    assert Concat([c]) == c + Concat([c][1..]);
  }

  /** Value of `queue`/`countInQueue` after `trimQueueToLimit`. */
  datatype Trimmed<T> = Trimmed(chunks: seq<seq<T>>, count: int)

  /** The `while` loop of `trimQueueToLimit`: one call per iteration, `toTrim`
      samples still to be cut from the front. A front chunk no longer than
      `toTrim` is shifted off; a longer one is replaced by its suffix after
      the first `toTrim` samples (`first.subarray(toTrim)`), which ends the loop. */
  function TrimLoop<T>(queue: seq<seq<T>>, count: int, toTrim: int): (r: Trimmed<T>)
    ensures count == TotalLength(queue) && toTrim <= count ==>
      && r.count == TotalLength(r.chunks)
      && r.count == count - Max0(toTrim)
      && Concat(r.chunks) == Concat(queue)[Max0(toTrim)..]
      && FrontTrimmed(queue, r.chunks)
    decreases |queue|
  {
    if toTrim <= 0 || |queue| == 0 then
      Trimmed(queue, count)
    else if |queue[0]| <= toTrim then
      var r := TrimLoop(queue[1..], count - |queue[0]|, toTrim - |queue[0]|);
      ShiftStep(queue, count, toTrim, r);
      r
    else
      var r := Trimmed([queue[0][toTrim..]] + queue[1..], count - toTrim);
      CutStep(queue, count, toTrim);
      r
  }

  /** What `TrimLoop` promises of `r` for `queue`, `count` and `toTrim`. */
  ghost predicate TrimPost<T>(queue: seq<seq<T>>, count: int, toTrim: int, r: Trimmed<T>)
  {
    count == TotalLength(queue) && toTrim <= count ==>
      && r.count == TotalLength(r.chunks)
      && r.count == count - Max0(toTrim)
      && Concat(r.chunks) == Concat(queue)[Max0(toTrim)..]
      && FrontTrimmed(queue, r.chunks)
  }

  /** Shifting off a whole front chunk: what the rest of the loop does to
      the remaining chunks, it does to the queue. */
  lemma ShiftStep<T>(queue: seq<seq<T>>, count: int, toTrim: int, r: Trimmed<T>)
    requires |queue| > 0 && 0 < toTrim && |queue[0]| <= toTrim
    requires TrimPost(queue[1..], count - |queue[0]|, toTrim - |queue[0]|, r)
    ensures TrimPost(queue, count, toTrim, r)
  {
    if count == TotalLength(queue) && toTrim <= count {
      var q0, rest := queue[0], queue[1..];
      assert Concat(queue) == q0 + Concat(rest);
      assert Concat(queue)[toTrim..] == Concat(rest)[toTrim - |q0|..];
      var c := r.chunks;
      if |c| > 0 {
        assert rest[|rest| - |c| + 1..] == queue[|queue| - |c| + 1..];
        assert rest[|rest| - |c|] == queue[|queue| - |c|];
      }
    }
  }

  /** Cutting the front chunk to its suffix after `toTrim` samples. */
  lemma CutStep<T>(queue: seq<seq<T>>, count: int, toTrim: int)
    requires |queue| > 0 && 0 < toTrim < |queue[0]|
    ensures TrimPost(queue, count, toTrim, Trimmed([queue[0][toTrim..]] + queue[1..], count - toTrim))
  {
    var front := queue[0][toTrim..];
    var chunks := [front] + queue[1..];
    assert chunks[1..] == queue[1..];
    assert Concat(chunks) == front + Concat(queue[1..]);
    assert Concat(queue) == queue[0] + Concat(queue[1..]);
    assert Concat(chunks) == Concat(queue)[toTrim..];
    assert IsSuffix(front, queue[0]);
  }

  /** `trimQueueToLimit(queue, countInQueue, limit)`: when the count is the
      true total, the result keeps exactly the last `limit` samples, by
      dropping or shortening chunks at the front only; a queue already within
      the limit is returned as it is. */
  function TrimQueueToLimit<T>(queue: seq<seq<T>>, count: int, limit: int): (r: Trimmed<T>)
    ensures count == TotalLength(queue) && 0 <= limit ==>
      && r.count == TotalLength(r.chunks)
      && r.count == Min(count, limit)
      && Concat(r.chunks) == Last(Concat(queue), limit)
      && FrontTrimmed(queue, r.chunks)
    ensures count <= limit ==> r == Trimmed(queue, count)
  {
    TrimLoop(queue, count, count - limit)
  }

  /** The capture settings a step reads: `WINDOW_SEC`, `SEND_EVERY_N` and the
      audio context's sample rate. */
  datatype Config = Config(windowSec: nat, sendEveryN: nat, sampleRate: nat)

  function OverlapLimit(cfg: Config): nat { OverlapSec * cfg.sampleRate }

  function BodyLimit(cfg: Config): nat { cfg.windowSec * cfg.sampleRate }

  /** `id % SEND_EVERY_N === 0`; with `SEND_EVERY_N` 0 JavaScript computes
      `NaN`, which is never 0, so nothing is forwarded. */
  predicate Forwarded(id: int, n: nat)
  {
    n > 0 && id % n == 0
  }

  /** One capture path's buffers: `bodyChunks`/`bodySamples`,
      `overlapChunks`/`overlapSamples` and the window counter `seq`. */
  datatype Buffers<T> = Buffers(
    body: seq<seq<T>>,
    bodySamples: int,
    overlap: seq<seq<T>>,
    overlapSamples: int,
    seqNo: int)

  /** The reset at capture start: empty lists, zero counts, `seq = 0`. */
  function Reset<T>(): Buffers<T>
  {
    Buffers([], 0, [], 0, 0)
  }

  /** The counts match the lists and the overlap is within its limit. */
  predicate Consistent<T>(cfg: Config, b: Buffers<T>)
  {
    && b.bodySamples == TotalLength(b.body)
    && b.overlapSamples == TotalLength(b.overlap)
    && b.overlapSamples <= OverlapLimit(cfg)
  }

  /** An emitted window: its number, its time span and its samples, and
      whether the sampling rule lets it through to the delivery queue. */
  datatype Window<T> = Window(id: int, startSec: int, endSec: int, pcm: seq<T>, forwarded: bool)

  datatype StepResult<T> = StepResult(next: Buffers<T>, emitted: Option<Window<T>>)

  /** The `port.onmessage` handler for one chunk. */
  function Step<T>(cfg: Config, b: Buffers<T>, chunk: seq<T>): (r: StepResult<T>)
    ensures r.emitted.Some? <==> b.bodySamples + |chunk| >= BodyLimit(cfg)
    ensures r.emitted.Some? ==>
      && r.next.body == [] && r.next.bodySamples == 0
      && r.emitted.value.id == b.seqNo + 1 == r.next.seqNo
      && r.emitted.value.startSec == (r.emitted.value.id - 1) * cfg.windowSec
      && r.emitted.value.endSec - r.emitted.value.startSec == OverlapSec + cfg.windowSec
      && (r.emitted.value.forwarded <==> Forwarded(r.emitted.value.id, cfg.sendEveryN))
    ensures r.emitted.None? ==>
      && r.next.body == b.body + [chunk]
      && r.next.bodySamples == b.bodySamples + |chunk|
      && r.next.seqNo == b.seqNo
    ensures Consistent(cfg, b) ==>
      && Consistent(cfg, r.next)
      && Concat(r.next.overlap) == Last(Concat(b.overlap) + chunk, OverlapLimit(cfg))
      && (r.emitted.Some? ==> r.emitted.value.pcm == Concat(r.next.overlap) + Concat(b.body) + chunk)
      && (r.emitted.None? ==> r.next.bodySamples < BodyLimit(cfg))
  {
    var body := b.body + [chunk];
    var bodyN := b.bodySamples + |chunk|;
    ConcatSnoc(b.body, chunk);
    var kept := PushOverlap(cfg, b, chunk);
    if bodyN >= BodyLimit(cfg) then
      ConcatAppend(kept.chunks, body);
      var id := b.seqNo + 1;
      var startSec := (id - 1) * cfg.windowSec;
      var endSec := startSec + OverlapSec + cfg.windowSec;
      var w := Window(id, startSec, endSec, Concat(kept.chunks + body), Forwarded(id, cfg.sendEveryN));
      StepResult(Buffers([], 0, kept.chunks, kept.count, id), Some(w))
    else
      StepResult(Buffers(body, bodyN, kept.chunks, kept.count, b.seqNo), None)
  }

  /** The overlap half of the handler: push the chunk, then trim the queue
      to `OVERLAP_SEC * sr` samples when it holds more. */
  function PushOverlap<T>(cfg: Config, b: Buffers<T>, chunk: seq<T>): (k: Trimmed<T>)
    ensures Consistent(cfg, b) ==>
      && k.count == TotalLength(k.chunks) && k.count <= OverlapLimit(cfg)
      && Concat(k.chunks) == Last(Concat(b.overlap) + chunk, OverlapLimit(cfg))
  {
    var overlap := b.overlap + [chunk];
    var overlapN := b.overlapSamples + |chunk|;
    var limit := OverlapLimit(cfg);
    ConcatSnoc(b.overlap, chunk);
    if overlapN > limit then TrimQueueToLimit(overlap, overlapN, limit) else Trimmed(overlap, overlapN)
  }

  function Emitted<T>(r: StepResult<T>): seq<Window<T>>
  {
    if r.emitted.Some? then [r.emitted.value] else []
  }

  /** A capture path's history: its buffers after the chunks so far, and the
      windows it emitted, in order. */
  datatype Trace<T> = Trace(buffers: Buffers<T>, windows: seq<Window<T>>)

  /** Feeds `chunks` one by one to a freshly reset path. */
  function Run<T>(cfg: Config, chunks: seq<seq<T>>): Trace<T>
  {
    if |chunks| == 0 then Trace(Reset(), [])
    else
      var t := Run(cfg, chunks[..|chunks| - 1]);
      var r := Step(cfg, t.buffers, chunks[|chunks| - 1]);
      Trace(r.next, t.windows + Emitted(r))
  }

  /** The buffers keep the last `OVERLAP_SEC * sr` samples of `stream`. */
  ghost predicate Tracks<T>(cfg: Config, b: Buffers<T>, stream: seq<T>)
  {
    Consistent(cfg, b) && Concat(b.overlap) == Last(stream, OverlapLimit(cfg))
  }

  lemma StepTracks<T>(cfg: Config, b: Buffers<T>, stream: seq<T>, chunk: seq<T>)
    requires Tracks(cfg, b, stream)
    ensures Tracks(cfg, Step(cfg, b, chunk).next, stream + chunk)
  {
    LastOfLast(stream, chunk, OverlapLimit(cfg));
  }

  lemma {:induction false} RunTracks<T>(cfg: Config, chunks: seq<seq<T>>)
    ensures Tracks(cfg, Run(cfg, chunks).buffers, Concat(chunks))
    decreases |chunks|
  {
    if |chunks| > 0 {
      var prefix := chunks[..|chunks| - 1];
      var c := chunks[|chunks| - 1];
      RunTracks(cfg, prefix);
      StepTracks(cfg, Run(cfg, prefix).buffers, Concat(prefix), c);
      assert Concat(chunks) == Concat(prefix) + c by {
        assert chunks == prefix + [c];
        ConcatSnoc(prefix, c);
      }
    }
  }

  /** After every chunk the counts match the lists and the overlap holds
      exactly the last `min(samples seen, OVERLAP_SEC * sr)` samples of the
      stream. The chunk is pushed onto the overlap and the overlap trimmed
      BEFORE the window is cut, so a window's lead-in is the tail of the
      stream up to and including the chunk that completed it: once the body
      holds at least `OVERLAP_SEC` seconds, the lead-in is the last
      `OVERLAP_SEC` seconds of that window's own body, those samples appear
      twice in its PCM, and nothing of the previous window is carried. */
  lemma RunOverlap<T>(cfg: Config, chunks: seq<seq<T>>)
    ensures var t := Run(cfg, chunks);
      && Consistent(cfg, t.buffers)
      && Concat(t.buffers.overlap) == Last(Concat(chunks), OverlapLimit(cfg))
      && t.buffers.overlapSamples == Min(TotalLength(chunks), OverlapLimit(cfg))
  {
    RunTracks(cfg, chunks);
    LastLength(Concat(chunks), OverlapLimit(cfg));
  }

  /** The trace after a non-empty run is one step past the trace before its
      last chunk. */
  lemma RunLast<T>(cfg: Config, chunks: seq<seq<T>>)
    requires |chunks| > 0
    ensures var t := Run(cfg, chunks[..|chunks| - 1]);
      var r := Step(cfg, t.buffers, chunks[|chunks| - 1]);
      Run(cfg, chunks) == Trace(r.next, t.windows + Emitted(r))
  {
  }

  /** Windows are numbered 1, 2, 3, ... with the counter at the number of the
      last one; window `id` spans `OVERLAP_SEC + WINDOW_SEC` seconds from
      `(id - 1) * WINDOW_SEC`, and it is forwarded exactly when
      `id % SEND_EVERY_N == 0` -- a skipped window still uses up its number
      and its slot on the timeline. */
  lemma {:induction false} RunNumbering<T>(cfg: Config, chunks: seq<seq<T>>)
    ensures var t := Run(cfg, chunks);
      && t.buffers.seqNo == |t.windows|
      && (forall i :: 0 <= i < |t.windows| ==>
            && t.windows[i].id == i + 1
            && t.windows[i].startSec == i * cfg.windowSec
            && t.windows[i].endSec == i * cfg.windowSec + OverlapSec + cfg.windowSec
            && (t.windows[i].forwarded <==> Forwarded(i + 1, cfg.sendEveryN)))
    decreases |chunks|
  {
    if |chunks| > 0 {
      var prefix := chunks[..|chunks| - 1];
      RunNumbering(cfg, prefix);
      var t := Run(cfg, prefix);
      var r := Step(cfg, t.buffers, chunks[|chunks| - 1]);
      var ws := t.windows + Emitted(r);
      assert Run(cfg, chunks) == Trace(r.next, ws);
      forall i | 0 <= i < |ws|
        ensures ws[i].id == i + 1
        ensures ws[i].startSec == i * cfg.windowSec
        ensures ws[i].endSec == i * cfg.windowSec + OverlapSec + cfg.windowSec
        ensures ws[i].forwarded <==> Forwarded(i + 1, cfg.sendEveryN)
      {
        if i == |t.windows| {
          assert ws[i] == r.emitted.value;
        } else {
          assert ws[i] == t.windows[i];
        }
      }
    }
  }

  /** With equal-sized chunks and a window that is a whole number `k` of
      chunks, a window is emitted after every `k`-th chunk and after no
      other: the body always holds the chunks since the last multiple of `k`. */
  lemma {:induction false} UniformChunks<T>(cfg: Config, chunks: seq<seq<T>>, c: nat, k: nat)
    requires c > 0 && k > 0 && BodyLimit(cfg) == k * c
    requires forall i :: 0 <= i < |chunks| ==> |chunks[i]| == c
    ensures Run(cfg, chunks).buffers.bodySamples == (|chunks| % k) * c
    ensures Run(cfg, chunks).buffers.body == chunks[SinceLastWindow(|chunks|, k)..]
    ensures |Run(cfg, chunks).windows| == |chunks| / k
    decreases |chunks|
  {
    if |chunks| > 0 {
      var n := |chunks| - 1;
      var prefix := chunks[..n];
      assert forall i :: 0 <= i < |prefix| ==> |prefix[i]| == c;
      UniformChunks(cfg, prefix, c, k);
      RunLast(cfg, chunks);
      UniformStep(cfg, Run(cfg, prefix), Run(cfg, chunks), chunks, c, k);
    }
  }

  /** Index of the first chunk after the last window when every window is
      `k` chunks. */
  function SinceLastWindow(n: nat, k: nat): (i: nat)
    requires k > 0
    ensures i <= n && i % k == 0 && n - i < k
  {
    DivModUnique(n - n % k, k, n / k, 0);
    n - n % k
  }

  /** The body after chunk `n` of `chunks` is the chunks since the last
      window, given that it was so after the chunks before it. */
  lemma BodySince<T>(chunks: seq<seq<T>>, k: nat, prev: seq<seq<T>>, next: seq<seq<T>>, emitted: bool)
    requires |chunks| > 0 && k > 0
    requires var n := |chunks| - 1; prev == chunks[..n][SinceLastWindow(n, k)..]
    requires var n := |chunks| - 1; emitted <==> (n + 1) % k == 0
    requires var n := |chunks| - 1; !emitted ==> (n + 1) % k == n % k + 1 && next == prev + [chunks[n]]
    requires emitted ==> next == []
    ensures next == chunks[SinceLastWindow(|chunks|, k)..]
  {
    var n := |chunks| - 1;
    if !emitted {
      assert prev == chunks[n - n % k..n];
      assert chunks[n - n % k..n] + [chunks[n]] == chunks[n - n % k..];
    }
  }

  /** The trace `u` after the last chunk of `chunks`, of `c` samples, from
      the trace `t` after the others. */
  lemma UniformStep<T>(cfg: Config, t: Trace<T>, u: Trace<T>, chunks: seq<seq<T>>, c: nat, k: nat)
    requires c > 0 && k > 0 && BodyLimit(cfg) == k * c && |chunks| > 0
    requires var n := |chunks| - 1;
      && |chunks[n]| == c && t.buffers.bodySamples == (n % k) * c
      && t.buffers.body == chunks[..n][SinceLastWindow(n, k)..]
      && |t.windows| == n / k
    requires var r := Step(cfg, t.buffers, chunks[|chunks| - 1]);
      u == Trace(r.next, t.windows + Emitted(r))
    ensures u.buffers.bodySamples == (|chunks| % k) * c
    ensures u.buffers.body == chunks[SinceLastWindow(|chunks|, k)..]
    ensures |u.windows| == |chunks| / k
  {
    var n := |chunks| - 1;
    var r := Step(cfg, t.buffers, chunks[n]);
    var m := n % k;
    MulSucc(m, c);
    CountUp(n, k);
    if m + 1 == k {
      assert r.emitted.Some?;
    } else {
      ScaleLess(m + 1, k, c);
      assert r.emitted.None?;
    }
    BodySince(chunks, k, t.buffers.body, r.next.body, r.emitted.Some?);
  }


}

=== FILE: base64.dfy ===
/** `arrayBufferToBase64` (`btoa` over the bytes as a binary string) and
    `base64ToArrayBuffer` (`atob`) of background.js: the base64 encoding of
    section 4 of RFC 4648, with the standard alphabet and '=' padding. */
module Base64 {
  import opened Wrappers
  import opened Bytes
  import opened Arith

  type Sextet = x: int | 0 <= x < 64

  /** The character of the standard alphabet for a 6-bit value:
      'A'-'Z', 'a'-'z', '0'-'9', '+', '/'. */
  function SextetChar(v: Sextet): (c: char)
    ensures CharSextet(c) == Some(v)
    ensures c != '='
  {
    if v < 26 then (65 + v) as char
    else if v < 52 then (97 + v - 26) as char
    else if v < 62 then (48 + v - 52) as char
    else if v == 62 then '+'
    else '/'
  }

  /** The 6-bit value of an alphabet character; `None` for anything else. */
  function CharSextet(c: char): (r: Option<Sextet>)
    ensures r.Some? ==> c != '='
  {
    if 'A' <= c <= 'Z' then Some(c as int - 65)
    else if 'a' <= c <= 'z' then Some(c as int - 97 + 26)
    else if '0' <= c <= '9' then Some(c as int - 48 + 52)
    else if c == '+' then Some(62)
    else if c == '/' then Some(63)
    else None
  }

  /** Only alphabet characters decode, each to the one value that spells it. */
  lemma CharSextetInverse(c: char)
    requires CharSextet(c).Some?
    ensures SextetChar(CharSextet(c).value) == c
  {
  }

  /** Three bytes as four characters. */
  function EncodeGroup(x: Byte, y: Byte, z: Byte): (r: string)
    ensures |r| == 4
  {
    [SextetChar(x / 4), SextetChar((x % 4) * 16 + y / 16), SextetChar((y % 16) * 4 + z / 64), SextetChar(z % 64)]
  }

  /** The padded encoding: every full group of three bytes becomes four
      characters; a final group of one or two bytes is padded with '=' to
      four characters, its unused bits zero. */
  function Encode(b: seq<Byte>): (r: string)
    ensures |r| == 4 * ((|b| + 2) / 3)
    decreases |b|
  {
    if |b| == 0 then ""
    else if |b| == 1 then [SextetChar(b[0] / 4), SextetChar((b[0] % 4) * 16), '=', '=']
    else if |b| == 2 then [SextetChar(b[0] / 4), SextetChar((b[0] % 4) * 16 + b[1] / 16), SextetChar((b[1] % 16) * 4), '=']
    else EncodeGroup(b[0], b[1], b[2]) + Encode(b[3..])
  }

  /** Four 6-bit values as the three bytes whose bits they spell. */
  function Bytes3(a: Sextet, b: Sextet, c: Sextet, d: Sextet): (r: seq<Byte>)
    ensures |r| == 3
  {
    [(a as int) * 4 + (b as int) / 16, ((b as int) % 16) * 16 + (c as int) / 4, ((c as int) % 4) * 64 + d as int]
  }

  /** Four alphabet characters as three bytes. */
  function DecodeQuad(q: string): (r: Option<seq<Byte>>)
    requires |q| == 4
    ensures r.Some? ==> |r.value| == 3
  {
    match (CharSextet(q[0]), CharSextet(q[1]), CharSextet(q[2]), CharSextet(q[3]))
    case (Some(a), Some(b), Some(c), Some(d)) =>
      Some(Bytes3(a, b, c, d))
    case _ => None
  }

  /** The last quad, which may carry one or two '=' of padding; the bits the
      padding leaves over must be zero. */
  function DecodeFinal(q: string): (r: Option<seq<Byte>>)
    requires |q| == 4
    ensures r.Some? ==> 1 <= |r.value| <= 3
  {
    if q[2] == '=' && q[3] == '=' then
      match (CharSextet(q[0]), CharSextet(q[1]))
      case (Some(a), Some(b)) =>
        if b % 16 == 0 then Some(Bytes3(a, b, 0, 0)[..1]) else None
      case _ => None
    else if q[3] == '=' then
      match (CharSextet(q[0]), CharSextet(q[1]), CharSextet(q[2]))
      case (Some(a), Some(b), Some(c)) =>
        if c % 4 == 0 then Some(Bytes3(a, b, c, 0)[..2]) else None
      case _ => None
    else DecodeQuad(q)
  }

  /** Strict decoding: the text is a whole number of quads, padding occurs
      only in the last one, and every other character is in the alphabet. */
  function Decode(s: string): (r: Option<seq<Byte>>)
    ensures r.Some? ==> |s| == 4 * ((|r.value| + 2) / 3)
    decreases |s|
  {
    if |s| == 0 then Some([])
    else if |s| % 4 != 0 then None
    else if |s| == 4 then DecodeFinal(s)
    else
      match DecodeQuad(s[..4])
      case None => None
      case Some(head) =>
        match Decode(s[4..])
        case None => None
        case Some(tail) =>
          QuadsLength(|s| - 4, |tail|);
          Some(head + tail)
  }

  /** One more whole quad of text is three more bytes. */
  lemma QuadsLength(n: nat, v: nat)
    requires n == 4 * ((v + 2) / 3)
    ensures n + 4 == 4 * ((v + 3 + 2) / 3)
  {
    DivModUnique(v + 3 + 2, 3, (v + 2) / 3 + 1, (v + 2) % 3);
  }

  /** The 6-bit values of three bytes spell those bytes again. */
  lemma SplitJoin(x: Byte, y: Byte, z: Byte)
    ensures Bytes3(x / 4, (x % 4) * 16 + y / 16, (y % 16) * 4 + z / 64, z % 64) == [x, y, z]
  {
    var b: int := (x % 4) * 16 + y / 16;
    var c: int := (y % 16) * 4 + z / 64;
    DivModUnique(b, 16, x % 4, y / 16);
    DivModUnique(c, 4, y % 16, z / 64);
  }

  lemma GroupRoundTrip(x: Byte, y: Byte, z: Byte)
    ensures DecodeQuad(EncodeGroup(x, y, z)) == Some([x, y, z])
  {
    SplitJoin(x, y, z);
  }

  /** Decoding undoes encoding: the bytes stored as text come back unchanged. */
  lemma {:induction false} RoundTrip(b: seq<Byte>)
    ensures Decode(Encode(b)) == Some(b)
    decreases |b|
  {
    if |b| == 1 {
      OneRoundTrip(b);
    } else if |b| == 2 {
      TwoRoundTrip(b);
    } else if |b| == 3 {
      ThreeRoundTrip(b);
    } else if |b| > 3 {
      RoundTrip(b[3..]);
      ConsRoundTrip(b);
    }
  }

  lemma ConsRoundTrip(b: seq<Byte>)
    requires |b| > 3 && Decode(Encode(b[3..])) == Some(b[3..])
    ensures Decode(Encode(b)) == Some(b)
  {
    var tail := b[3..];
    var g, rest := EncodeGroup(b[0], b[1], b[2]), Encode(tail);
    assert Encode(b) == g + rest;
    assert |rest| > 0 by { EncodeNonEmpty(tail); }
    GroupRoundTrip(b[0], b[1], b[2]);
    DecodeCons(g, rest);
    assert b == [b[0], b[1], b[2]] + tail by { SplitFront(b); }
  }

  lemma SplitFront(b: seq<Byte>)
    requires |b| >= 3
    ensures b == [b[0], b[1], b[2]] + b[3..]
  {
    assert b[..3] == [b[0], b[1], b[2]];
    assert b == b[..3] + b[3..];
  }

  lemma EncodeNonEmpty(b: seq<Byte>)
    requires |b| > 0
    ensures |Encode(b)| > 0
  {
  }

  lemma ThreeRoundTrip(b: seq<Byte>)
    requires |b| == 3
    ensures Decode(Encode(b)) == Some(b)
  {
    GroupRoundTrip(b[0], b[1], b[2]);
    assert Encode(b) == EncodeGroup(b[0], b[1], b[2]);
    assert b == [b[0], b[1], b[2]];
  }

  /** A leading quad decodes on its own, ahead of the rest. */
  lemma DecodeCons(q: string, rest: string)
    requires |q| == 4 && DecodeQuad(q).Some? && Decode(rest).Some? && |rest| > 0
    ensures Decode(q + rest) == Some(DecodeQuad(q).value + Decode(rest).value)
  {
    var s := q + rest;
    DecodedLength(rest);
    var k := |rest| / 4;
    assert |rest| == 4 * k;
    DivModUnique(|s|, 4, k + 1, 0);
    assert s[..4] == q && s[4..] == rest;
  }

  lemma DecodedLength(s: string)
    requires Decode(s).Some?
    ensures |s| % 4 == 0
  {
  }

  lemma OneRoundTrip(bs: seq<Byte>)
    requires |bs| == 1
    ensures Decode(Encode(bs)) == Some(bs)
  {
    var x := bs[0];
    assert Encode(bs) == [SextetChar(x / 4), SextetChar((x % 4) * 16), '=', '='];
    OneFinal(x);
    assert bs == [x];
  }

  /** The padded quad of one byte decodes to that byte. */
  lemma OneFinal(x: Byte)
    ensures DecodeFinal([SextetChar(x / 4), SextetChar((x % 4) * 16), '=', '=']) == Some([x])
  {
    var a: int, b: int := x / 4, (x % 4) * 16;
    var s := [SextetChar(a), SextetChar(b), '=', '='];
    DivModUnique(b, 16, x % 4, 0);
    assert a * 4 + b / 16 == x;
    assert CharSextet(s[0]) == Some(a) && CharSextet(s[1]) == Some(b);
    var r := Bytes3(a, b, 0, 0);
    assert r[0] == x;
    assert r[..1] == [r[0]];
  }

  lemma TwoRoundTrip(bs: seq<Byte>)
    requires |bs| == 2
    ensures Decode(Encode(bs)) == Some(bs)
  {
    var x, y := bs[0], bs[1];
    assert Encode(bs) == [SextetChar(x / 4), SextetChar((x % 4) * 16 + y / 16), SextetChar((y % 16) * 4), '='];
    TwoFinal(x, y);
    assert bs == [x, y];
  }

  /** The padded quad of two bytes decodes to those bytes. */
  lemma TwoFinal(x: Byte, y: Byte)
    ensures DecodeFinal([SextetChar(x / 4), SextetChar((x % 4) * 16 + y / 16), SextetChar((y % 16) * 4), '=']) == Some([x, y])
  {
    var a: int, b: int, c: int := x / 4, (x % 4) * 16 + y / 16, (y % 16) * 4;
    var s := [SextetChar(a), SextetChar(b), SextetChar(c), '='];
    TwoBytesSplit(x, y);
    assert CharSextet(s[0]) == Some(a) && CharSextet(s[1]) == Some(b) && CharSextet(s[2]) == Some(c);
    var r := Bytes3(a, b, c, 0);
    assert r[0] == x && r[1] == y;
    assert r[..2] == [r[0], r[1]];
  }

  lemma TwoBytesSplit(x: Byte, y: Byte)
    ensures var a, b, c := x / 4, (x % 4) * 16 + y / 16, (y % 16) * 4;
      a * 4 + b / 16 == x && (b % 16) * 16 + c / 4 == y && c % 4 == 0
  {
    var b, c := (x % 4) * 16 + y / 16, (y % 16) * 4;
    DivModUnique(b, 16, x % 4, y / 16);
    DivModUnique(c, 4, y % 16, 0);
  }

  /** The bytes spelt by four 6-bit values split back into those values. */
  lemma JoinSplit(a: Sextet, b: Sextet, c: Sextet, d: Sextet)
    ensures var r := Bytes3(a, b, c, d);
      r[0] / 4 == a && (r[0] % 4) * 16 + r[1] / 16 == b && (r[1] % 16) * 4 + r[2] / 64 == c && r[2] % 64 == d
  {
    var r := Bytes3(a, b, c, d);
    DivModUnique(r[0], 4, a, b / 16);
    DivModUnique(r[1], 16, b % 16, c / 4);
    DivModUnique(r[2], 64, c % 4, d);
  }

  lemma QuadReencodes(q: string)
    requires |q| == 4 && DecodeQuad(q).Some?
    ensures var r := DecodeQuad(q).value; EncodeGroup(r[0], r[1], r[2]) == q
  {
    var a, b, c, d := CharSextet(q[0]).value, CharSextet(q[1]).value, CharSextet(q[2]).value, CharSextet(q[3]).value;
    assert DecodeQuad(q).value == Bytes3(a, b, c, d);
    GroupOfSextets(a, b, c, d);
    CharSextetInverse(q[0]);
    CharSextetInverse(q[1]);
    CharSextetInverse(q[2]);
    CharSextetInverse(q[3]);
    assert q == [q[0], q[1], q[2], q[3]];
  }

  /** The group the bytes of four 6-bit values encode to spells those values. */
  lemma GroupOfSextets(a: Sextet, b: Sextet, c: Sextet, d: Sextet)
    ensures var r := Bytes3(a, b, c, d);
      EncodeGroup(r[0], r[1], r[2]) == [SextetChar(a), SextetChar(b), SextetChar(c), SextetChar(d)]
  {
    JoinSplit(a, b, c, d);
  }

  lemma FinalReencodes(q: string)
    requires |q| == 4 && DecodeFinal(q).Some?
    ensures Encode(DecodeFinal(q).value) == q
  {
    if q[2] == '=' && q[3] == '=' {
      OnePadReencodes(q);
    } else if q[3] == '=' {
      TwoPadReencodes(q);
    } else {
      var r := DecodeFinal(q).value;
      QuadReencodes(q);
      assert Encode(r) == EncodeGroup(r[0], r[1], r[2]) + Encode(r[3..]);
    }
  }

  /** "xy==" spells one byte whose low bits fill `y`'s high two bits. */
  lemma OnePadReencodes(q: string)
    requires |q| == 4 && q[2] == '=' && q[3] == '=' && DecodeFinal(q).Some?
    ensures Encode(DecodeFinal(q).value) == q
  {
    var a: int, b: int := CharSextet(q[0]).value, CharSextet(q[1]).value;
    var x := a * 4 + b / 16;
    assert DecodeFinal(q).value == [x];
    DivModUnique(x, 4, a, b / 16);
    DivModUnique(b, 16, b / 16, 0);
    CharSextetInverse(q[0]);
    CharSextetInverse(q[1]);
    assert Encode([x]) == [SextetChar(a), SextetChar(b), '=', '='];
  }

  /** "xyz=" spells two bytes. */
  lemma TwoPadReencodes(q: string)
    requires |q| == 4 && q[3] == '=' && !(q[2] == '=') && DecodeFinal(q).Some?
    ensures Encode(DecodeFinal(q).value) == q
  {
    var a: int, b: int, c: int := CharSextet(q[0]).value, CharSextet(q[1]).value, CharSextet(q[2]).value;
    var x, y := a * 4 + b / 16, (b % 16) * 16 + c / 4;
    assert DecodeFinal(q).value == [x, y];
    DivModUnique(x, 4, a, b / 16);
    DivModUnique(y, 16, b % 16, c / 4);
    DivModUnique(c, 4, c / 4, 0);
    assert (x % 4) * 16 + y / 16 == b;
    CharSextetInverse(q[0]);
    CharSextetInverse(q[1]);
    CharSextetInverse(q[2]);
    assert Encode([x, y]) == [SextetChar(a), SextetChar(b), SextetChar(c), '='];
  }

  /** Conversely, text the decoder accepts is exactly the encoding of what it
      decodes to: there is one spelling per byte sequence. */
  lemma {:induction false} Canonical(s: string)
    requires Decode(s).Some?
    ensures Encode(Decode(s).value) == s
    decreases |s|
  {
    if |s| == 0 {
    } else if |s| == 4 {
      FinalReencodes(s);
    } else {
      var head := DecodeQuad(s[..4]).value;
      var tail := Decode(s[4..]).value;
      Canonical(s[4..]);
      QuadReencodes(s[..4]);
      var b := head + tail;
      assert b[3..] == tail;
      assert |tail| >= 1 by { DecodedNonEmpty(s[4..]); }
      assert Encode(b) == EncodeGroup(b[0], b[1], b[2]) + Encode(b[3..]);
      assert s == s[..4] + s[4..];
    }
  }

  lemma {:induction false} DecodedNonEmpty(s: string)
    requires |s| > 0 && Decode(s).Some?
    ensures |Decode(s).value| >= 1
    decreases |s|
  {
    if |s| > 4 {
      DecodedNonEmpty(s[4..]);
    }
  }
}

=== FILE: bytes.dfy ===
/** Bytes as the integers 0..255 that a `Uint8Array` holds. */
module Bytes {

  type Byte = x: int | 0 <= x < 256
}

=== FILE: capture.dfy ===
/** The hand-off from a capture path to the worker: when a step cuts a
    window that the sampling rule forwards, the side panel sends a
    `TRANSCRIBE_CHUNK` carrying the window's WAVE bytes, its number, the
    path's name ("tab" or "mic") and its time span; a skipped window sends
    nothing. Both paths run the same step over their own buffers. */
module Capture {
  import opened Wrappers
  import opened Bytes
  import opened Arith
  import opened Assembler
  import opened Wav
  import opened Messages

  const TabSource: string := "tab"
  const MicSource: string := "mic"

  /** The message a forwarded window is sent as. */
  function WindowMessage(w: Window<Int16>, sampleRate: nat, source: string): (m: ChunkMsg)
    ensures m.seqNo == w.id && m.mime == "audio/wav" && m.payload.Binary?
    ensures m.source == Some(source) && m.startSec == Some(w.startSec) && m.endSec == Some(w.endSec)
  {
    ChunkMsg(w.id, "audio/wav", Binary(EncodeWav(w.pcm, sampleRate)), Some(source), Some(w.startSec), Some(w.endSec))
  }

  /** The bytes of a window's message are a WAVE buffer that decodes back to
      the window's rate and samples (the rate must fit the 32-bit field). */
  lemma WindowMessageDecodes(w: Window<Int16>, sampleRate: nat, source: string)
    requires sampleRate < 0x1_0000_0000
    ensures DecodeWav(WindowMessage(w, sampleRate, source).payload.bytes) == Some(Pcm(sampleRate, w.pcm))
  {
    WavRoundTrip(w.pcm, sampleRate);
  }

  datatype Captured = Captured(next: Buffers<Int16>, sent: Option<ChunkMsg>)

  /** One chunk on a capture path: the assembler's step, and the message it
      sends, if any. */
  function CaptureStep(cfg: Config, b: Buffers<Int16>, chunk: seq<Int16>, source: string): (r: Captured)
    ensures r.next == Step(cfg, b, chunk).next
    ensures r.sent.Some? <==> b.bodySamples + |chunk| >= BodyLimit(cfg) && Forwarded(b.seqNo + 1, cfg.sendEveryN)
    ensures r.sent.Some? ==> r.sent.value == WindowMessage(Step(cfg, b, chunk).emitted.value, cfg.sampleRate, source)
  {
    var s := Step(cfg, b, chunk);
    match s.emitted
    case Some(w) =>
      Captured(s.next, if w.forwarded then Some(WindowMessage(w, cfg.sampleRate, source)) else None)
    case None => Captured(s.next, None)
  }

  /** Every message a path sends while `chunks` arrive, in order. */
  function CaptureRun(cfg: Config, chunks: seq<seq<Int16>>, source: string): seq<ChunkMsg>
  {
    if |chunks| == 0 then []
    else
      var prefix := chunks[..|chunks| - 1];
      var r := CaptureStep(cfg, Run(cfg, prefix).buffers, chunks[|chunks| - 1], source);
      CaptureRun(cfg, prefix, source) + (if r.sent.Some? then [r.sent.value] else [])
  }

  /** The forwarded windows among `ws`, in order. */
  function ForwardedWindows<T>(ws: seq<Window<T>>): seq<Window<T>>
  {
    if |ws| == 0 then []
    else
      var w := ws[|ws| - 1];
      ForwardedWindows(ws[..|ws| - 1]) + (if w.forwarded then [w] else [])
  }

  function ForwardedMessages(ws: seq<Window<Int16>>, sampleRate: nat, source: string): (ms: seq<ChunkMsg>)
    ensures |ms| == |ForwardedWindows(ws)|
  {
    var fw := ForwardedWindows(ws);
    seq(|fw|, j requires 0 <= j < |fw| => WindowMessage(fw[j], sampleRate, source))
  }

  /** What a path sends is exactly the forwarded windows of its run. */
  lemma {:induction false} RunSends(cfg: Config, chunks: seq<seq<Int16>>, source: string)
    ensures CaptureRun(cfg, chunks, source) == ForwardedMessages(Run(cfg, chunks).windows, cfg.sampleRate, source)
    decreases |chunks|
  {
    if |chunks| > 0 {
      var prefix := chunks[..|chunks| - 1];
      RunSends(cfg, prefix, source);
      var t := Run(cfg, prefix);
      var s := Step(cfg, t.buffers, chunks[|chunks| - 1]);
      var r := CaptureStep(cfg, t.buffers, chunks[|chunks| - 1], source);
      assert Run(cfg, chunks).windows == t.windows + Emitted(s);
      if s.emitted.Some? {
        ForwardedSnoc(t.windows, s.emitted.value, cfg.sampleRate, source);
      } else {
        assert t.windows + Emitted(s) == t.windows;
      }
    }
  }

  lemma ForwardedSnoc(ws: seq<Window<Int16>>, w: Window<Int16>, sampleRate: nat, source: string)
    ensures ForwardedMessages(ws + [w], sampleRate, source)
      == ForwardedMessages(ws, sampleRate, source) + (if w.forwarded then [WindowMessage(w, sampleRate, source)] else [])
  {
    var all := ws + [w];
    assert all[..|all| - 1] == ws;
    var fw, fw' := ForwardedWindows(ws), ForwardedWindows(all);
    assert fw' == fw + (if w.forwarded then [w] else []);
    var ms, ms' := ForwardedMessages(ws, sampleRate, source), ForwardedMessages(all, sampleRate, source);
    var tail := if w.forwarded then [WindowMessage(w, sampleRate, source)] else [];
    assert |ms'| == |ms| + |tail|;
    forall j | 0 <= j < |ms'| ensures ms'[j] == (ms + tail)[j] {
      if j < |ms| {
        assert fw'[j] == fw[j];
      }
    }
  }

  /** Among windows numbered 1..k by the sampling rule, the forwarded ones
      number `k / N`, and the j-th of them is window `(j + 1) * N`. */
  lemma {:induction false} ForwardedSchedule<T>(ws: seq<Window<T>>, n: nat)
    requires n > 0
    requires forall i :: 0 <= i < |ws| ==> ws[i].id == i + 1 && (ws[i].forwarded <==> Forwarded(i + 1, n))
    ensures var fw := ForwardedWindows(ws);
      && |fw| == |ws| / n
      && forall j :: 0 <= j < |fw| ==> fw[j].id == (j + 1) * n && 1 <= fw[j].id <= |ws| && fw[j] == ws[fw[j].id - 1]
    decreases |ws|
  {
    if |ws| > 0 {
      var k := |ws| - 1;
      var prefix := ws[..k];
      ForwardedSchedule(prefix, n);
      var before := ForwardedWindows(prefix);
      var fw := ForwardedWindows(ws);
      CountUp(k, n);
      assert ws[k].id == k + 1;
      if (k + 1) % n == 0 {
        assert fw == before + [ws[k]];
        forall j | 0 <= j < |fw|
          ensures fw[j].id == (j + 1) * n && 1 <= fw[j].id <= |ws| && fw[j] == ws[fw[j].id - 1]
        {
          if j < |before| {
            assert fw[j] == before[j];
            assert ws[before[j].id - 1] == prefix[before[j].id - 1];
          }
        }
      } else {
        assert fw == before;
        forall j | 0 <= j < |fw|
          ensures fw[j] == ws[fw[j].id - 1]
        {
          assert ws[before[j].id - 1] == prefix[before[j].id - 1];
        }
      }
    }
  }

  /** The messages sent for windows laid out on the timeline by the
      sampling rule: windows N, 2N, 3N, ..., each stamped with its own time
      span and the path's name. */
  lemma MessagesSchedule(ws: seq<Window<Int16>>, cfg: Config, source: string)
    requires cfg.sendEveryN > 0
    requires forall i :: 0 <= i < |ws| ==>
      && ws[i].id == i + 1
      && ws[i].startSec == i * cfg.windowSec
      && ws[i].endSec == i * cfg.windowSec + OverlapSec + cfg.windowSec
      && (ws[i].forwarded <==> Forwarded(i + 1, cfg.sendEveryN))
    ensures var ms := ForwardedMessages(ws, cfg.sampleRate, source);
      && |ms| == |ws| / cfg.sendEveryN
      && forall j :: 0 <= j < |ms| ==> Slot(ms[j], j, cfg, source)
  {
    ForwardedSchedule(ws, cfg.sendEveryN);
    var fw := ForwardedWindows(ws);
    var ms := ForwardedMessages(ws, cfg.sampleRate, source);
    forall j | 0 <= j < |ms|
      ensures Slot(ms[j], j, cfg, source)
    {
      var w := fw[j];
      var i := w.id - 1;
      assert w == ws[i];
      assert w.startSec == i * cfg.windowSec && w.endSec == i * cfg.windowSec + OverlapSec + cfg.windowSec;
      assert ms[j] == WindowMessage(w, cfg.sampleRate, source);
      SlotOf(ms[j], w, j, cfg, source);
    }
  }

  lemma SlotOf(m: ChunkMsg, w: Window<Int16>, j: nat, cfg: Config, source: string)
    requires m.seqNo == w.id && m.startSec == Some(w.startSec) && m.endSec == Some(w.endSec) && m.source == Some(source)
    requires w.id == (j + 1) * cfg.sendEveryN
    requires w.startSec == (w.id - 1) * cfg.windowSec
    requires w.endSec == (w.id - 1) * cfg.windowSec + OverlapSec + cfg.windowSec
    ensures Slot(m, j, cfg, source)
  {
  }

  /** The j-th message a path sends (from 0) is for window `(j + 1) * N`,
      spans that window's seconds and names the path. */
  predicate Slot(m: ChunkMsg, j: nat, cfg: Config, source: string)
  {
    && m.seqNo == (j + 1) * cfg.sendEveryN
    && m.startSec == Some((m.seqNo - 1) * cfg.windowSec)
    && m.endSec == Some((m.seqNo - 1) * cfg.windowSec + OverlapSec + cfg.windowSec)
    && m.source == Some(source)
  }

  /** With `SEND_EVERY_N` = N > 0, a path that has emitted k windows has sent
      k / N messages, the j-th of them for window `(j + 1) * N`. */
  lemma OneInN(cfg: Config, chunks: seq<seq<Int16>>, source: string)
    requires cfg.sendEveryN > 0
    ensures var ms := CaptureRun(cfg, chunks, source);
      && |ms| == |Run(cfg, chunks).windows| / cfg.sendEveryN
      && forall j :: 0 <= j < |ms| ==> Slot(ms[j], j, cfg, source)
  {
    RunSends(cfg, chunks, source);
    RunNumbering(cfg, chunks);
    MessagesSchedule(Run(cfg, chunks).windows, cfg, source);
  }

  /** With `SEND_EVERY_N` = 0 nothing is ever sent. */
  lemma {:induction false} NeverSentWhenZero(cfg: Config, chunks: seq<seq<Int16>>, source: string)
    requires cfg.sendEveryN == 0
    ensures CaptureRun(cfg, chunks, source) == []
    decreases |chunks|
  {
    if |chunks| > 0 {
      NeverSentWhenZero(cfg, chunks[..|chunks| - 1], source);
    }
  }
}

=== FILE: clock.dfy ===
/** `fmtClock` of sidepanel.js: seconds rendered as minutes and seconds,
    each left-padded with zeros to two characters. */
module Clock {
  import opened Wrappers
  import opened Decimal
  import opened Arith

  /** JavaScript's `%`: the remainder takes the sign of the dividend. */
  function JsRemainder(a: int, b: int): (r: int)
    requires b > 0
    ensures a >= 0 ==> 0 <= r < b
    ensures a < 0 ==> -b < r <= 0
  {
    if a >= 0 then a % b else -((-a) % b)
  }

  /** A run of `n` '0' characters. */
  function Zeros(n: nat): (z: string)
    ensures |z| == n && forall i :: 0 <= i < n ==> z[i] == '0'
  {
    seq(n, _ => '0')
  }

  /** `String.prototype.padStart(2, '0')`. */
  function PadStart2(s: string): (r: string)
    ensures |r| == if |s| < 2 then 2 else |s|
    ensures r == Zeros(|r| - |s|) + s
  {
    if |s| < 2 then Zeros(2 - |s|) + s else s
  }

  /** `fmtClock(s)`: `Math.floor(s/60)` and `Math.floor(s%60)`, each padded.
      For an integer `s` the floors are the identity on `s % 60`, and
      JavaScript's floored `s/60` is Dafny's `/` with a positive divisor. */
  function FmtClock(s: int): (r: string)
    ensures s >= 0 ==> |r| >= 5 && r[|r| - 3] == ':'
  {
    var mm, ss := PadStart2(IntToString(s / 60)), PadStart2(IntToString(JsRemainder(s, 60)));
    if s >= 0 then SecondsText(s); ColonThird(mm, ss); mm + ":" + ss else mm + ":" + ss
  }

  lemma SecondsText(s: int)
    requires s >= 0
    ensures |PadStart2(IntToString(JsRemainder(s, 60)))| == 2
  {
    SecondsFieldWidth(s % 60);
  }

  lemma ColonThird(mm: string, ss: string)
    requires |mm| >= 2 && |ss| == 2
    ensures var t := mm + ":" + ss; |t| >= 5 && t[|t| - 3] == ':'
  {
  }

  /** Reads "m:ss" (any number of minute digits, exactly two second digits
      below 60) back into a number of seconds. */
  function ParseClock(t: string): Option<nat>
  {
    if |t| >= 4 && t[|t| - 3] == ':' && AllDigits(t[..|t| - 3]) && AllDigits(t[|t| - 2..])
       && DecimalValue(t[|t| - 2..]) < 60
    then Some(60 * DecimalValue(t[..|t| - 3]) + DecimalValue(t[|t| - 2..]))
    else None
  }

  /** Padding a digit run keeps it a digit run of the same value. */
  lemma PadKeepsValue(s: string)
    requires AllDigits(s) && |s| >= 1
    ensures AllDigits(PadStart2(s)) && DecimalValue(PadStart2(s)) == DecimalValue(s)
  {
    if |s| < 2 {
      assert Zeros(1) == "0";
      LeadingZero(s);
    }
  }

  /** Two-digit spelling of the seconds field. */
  lemma SecondsFieldWidth(n: nat)
    requires n < 60
    ensures |PadStart2(NatToString(n))| == 2
  {
    if n >= 10 {
      assert NatToString(n) == NatToString(n / 10) + [DigitChar(n % 10)];
    }
  }

  /** For a non-negative count both fields are plain digit runs. */
  lemma FmtClockOfNat(s: nat, m: nat, r: nat)
    requires r < 60 && s == 60 * m + r
    ensures FmtClock(s) == PadStart2(NatToString(m)) + ":" + PadStart2(NatToString(r))
  {
    DivModUnique(s, 60, m, r);
    assert IntToString(s / 60) == NatToString(m);
    assert JsRemainder(s, 60) == r;
  }

  /** How `ParseClock` reads a minutes run, a colon and a two-digit seconds run. */
  lemma ParseJoined(mm: string, ss: string, s: nat, m: nat, r: nat)
    requires |mm| >= 1 && AllDigits(mm) && DecimalValue(mm) == m
    requires |ss| == 2 && AllDigits(ss) && DecimalValue(ss) == r && r < 60
    requires s == 60 * m + r
    ensures ParseClock(mm + ":" + ss) == Some(s)
  {
    var t := mm + ":" + ss;
    assert t[..|t| - 3] == mm;
    assert t[|t| - 2..] == ss;
    assert t[|t| - 3] == ':';
  }

  /** The clock text of a non-negative second count denotes that count:
      formatting loses nothing, for any number of minutes. */
  lemma ClockRoundTrip(s: nat)
    ensures ParseClock(FmtClock(s)) == Some(s)
  {
    ClockOf(s, s / 60, s % 60);
  }

  lemma ClockOf(s: nat, m: nat, r: nat)
    requires r < 60 && s == 60 * m + r
    ensures ParseClock(FmtClock(s)) == Some(s)
  {
    FmtClockOfNat(s, m, r);
    FieldsRoundTrip(s, m, r);
  }

  lemma FieldsRoundTrip(s: nat, m: nat, r: nat)
    requires r < 60 && s == 60 * m + r
    ensures ParseClock(PadStart2(NatToString(m)) + ":" + PadStart2(NatToString(r))) == Some(s)
  {
    var mm, ss := PadStart2(NatToString(m)), PadStart2(NatToString(r));
    assert |ss| == 2 && AllDigits(ss) && DecimalValue(ss) == r by {
      SecondsFieldWidth(r);
      PadKeepsValue(NatToString(r));
    }
    assert |mm| >= 1 && AllDigits(mm) && DecimalValue(mm) == m by {
      PadKeepsValue(NatToString(m));
    }
    ParseJoined(mm, ss, s, m, r);
  }

  /** Below 100 minutes the clock text is exactly "mm:ss". */
  lemma ClockWidth(s: nat)
    requires s < 6000
    ensures |FmtClock(s)| == 5 && FmtClock(s)[2] == ':'
  {
    var m: nat := s / 60;
    FmtClockOfNat(s, m, s % 60);
    SecondsFieldWidth(s % 60);
    MinutesFieldWidth(m);
  }

  lemma MinutesFieldWidth(m: nat)
    requires m < 100
    ensures |PadStart2(NatToString(m))| == 2
  {
    if m >= 10 {
      assert NatToString(m) == NatToString(m / 10) + [DigitChar(m % 10)];
    }
  }
}

=== FILE: decimal.dfy ===
/** Decimal digit strings: JavaScript's `Number.prototype.toString()` on
    integers and the value of a run of ASCII digits (`Number("123")`). */
module Decimal {

  predicate IsDigit(c: char) {
    '0' <= c <= '9'
  }

  predicate AllDigits(s: string) {
    forall i :: 0 <= i < |s| ==> IsDigit(s[i])
  }

  function DigitChar(d: nat): (c: char)
    requires d < 10
    ensures IsDigit(c) && c as int - '0' as int == d
  {
    ('0' as int + d) as char
  }

  function DigitValue(c: char): nat
    requires IsDigit(c)
  {
    c as int - '0' as int
  }

  /** The number a run of decimal digits denotes; the empty run denotes 0. */
  function DecimalValue(s: string): nat
    requires AllDigits(s)
  {
    if |s| == 0 then 0 else 10 * DecimalValue(s[..|s| - 1]) + DigitValue(s[|s| - 1])
  }

  /** Shortest decimal spelling of a natural number. */
  function NatToString(n: nat): (s: string)
    ensures |s| >= 1 && AllDigits(s)
    ensures DecimalValue(s) == n
    ensures |s| > 1 ==> s[0] != '0'
    ensures n < 10 <==> |s| == 1
    decreases n
  {
    if n < 10 then [DigitChar(n)]
    else
      var prefix := NatToString(n / 10);
      var s := prefix + [DigitChar(n % 10)];
      assert s[..|s| - 1] == prefix;
      s
  }

  /** `String(i)` for an integer `i`: a minus sign, then the digits of `|i|`. */
  function IntToString(i: int): (s: string)
    ensures i >= 0 ==> AllDigits(s) && DecimalValue(s) == i
    ensures i < 0 ==> |s| >= 2 && s[0] == '-' && AllDigits(s[1..]) && DecimalValue(s[1..]) == -i
  {
    if i < 0 then "-" + NatToString(-i) else NatToString(i)
  }

  /** Leading zeros do not change the value of a digit run. */
  lemma {:induction false} LeadingZero(s: string)
    requires AllDigits(s)
    ensures AllDigits("0" + s) && DecimalValue("0" + s) == DecimalValue(s)
  {
    if |s| == 0 {
      assert DecimalValue("0" + s) == 10 * DecimalValue([]) + 0;
    } else {
      var t := "0" + s;
      assert t[..|t| - 1] == "0" + s[..|s| - 1];
      LeadingZero(s[..|s| - 1]);
    }
  }
}

=== FILE: messages.dfy ===
/** The runtime messages exchanged between the side panel and the
    background worker, and the status texts the worker sends. Message
    passing is taken to deliver each message's fields unchanged. */
module Messages {
  import opened Wrappers
  import opened Bytes
  import opened Decimal

  /** The `bytes` field: an `ArrayBuffer`, or the base64 string an item
      holds while it sits in the offline store. */
  datatype Payload = Binary(bytes: seq<Byte>) | Encoded(text: string)

  /** `TRANSCRIBE_CHUNK`, side panel to worker. An absent `source`,
      `startSec` or `endSec` is `None`. */
  datatype ChunkMsg = ChunkMsg(
    seqNo: int, mime: string, payload: Payload,
    source: Option<string>, startSec: Option<int>, endSec: Option<int>)

  /** `TRANSCRIPT_RESULT`, worker to side panel; `None` timing is `null`. */
  datatype ResultMsg = ResultMsg(
    seqNo: int, source: string, startSec: Option<int>, endSec: Option<int>, text: string)

  /** `msg.source || "tab"`. */
  function SourceOr(source: Option<string>): (s: string)
    ensures s != ""
    ensures source.Some? && source.value != "" ==> s == source.value
    ensures source.None? || source == Some("") ==> s == "tab"
  {
    if source.Some? && source.value != "" then source.value else "tab"
  }

  const RateLimitedMark: char := '\U{23F3}'   // hourglass
  const StoredMark: char := '\U{1F4E6}'       // package
  const FailedMark: char := '\U{274C}'        // cross mark

  /** The notice sent for each rate-limit answer. */
  function NoticeText(secs: nat): (t: string)
    ensures |t| > 0 && t[0] == RateLimitedMark
  {
    [RateLimitedMark] + " Rate-limited. Will retry in " + NatToString(secs) + "s\U{2026}"
  }

  /** The result sent for an item parked in the offline store. */
  const StoredText: string := [StoredMark] + " Stored locally (offline). Click 'Retry failed uploads' later."

  /** The result sent for an item given up on. */
  function FailedText(message: string): (t: string)
    ensures |t| > 0 && t[0] == FailedMark
  {
    [FailedMark] + " Transcription failed after retries: " + message
  }

  /** The side panel's test for a status line: the text starts with one of
      the three marks. */
  predicate IsStatusText(text: string)
  {
    |text| > 0 && (text[0] == RateLimitedMark || text[0] == StoredMark || text[0] == FailedMark)
  }

  /** Every status text the worker sends passes the side panel's test. */
  lemma WorkerTextsAreStatus(secs: nat, message: string)
    ensures IsStatusText(NoticeText(secs)) && IsStatusText(StoredText) && IsStatusText(FailedText(message))
  {
  }
}

=== FILE: offline_store.dfy ===
/** `addFailed` of background.js: the offline store keeps the most recent
    failed items, at most `FAILED_CAP` of them; a new item goes at the end
    and the oldest are evicted from the front. The store holds whatever
    form the caller stores (the worker stores items with base64 bytes). */
module OfflineStore {
  import opened Seqs

  /** `FAILED_CAP`. */
  const FailedCap: nat := 10

  /** `while (arr.length > FAILED_CAP) arr.shift()`. */
  function EvictOldest<T>(arr: seq<T>): (r: seq<T>)
    ensures r == Last(arr, FailedCap)
    decreases |arr|
  {
    if |arr| > FailedCap then EvictOldest(arr[1..]) else arr
  }

  /** `addFailed(item)` on the stored list: push, then evict. */
  function AddFailed<T>(store: seq<T>, item: T): (r: seq<T>)
    ensures |r| == Min(|store| + 1, FailedCap) && |r| <= FailedCap
    ensures r[|r| - 1] == item
    ensures r == Last(store + [item], FailedCap)
    ensures |store| < FailedCap ==> r == store + [item]
    ensures |store| >= FailedCap ==> r == store[|store| + 1 - FailedCap..] + [item]
  {
    var arr := store + [item];
    var r := EvictOldest(arr);
    assert |store| >= FailedCap ==> arr[|arr| - FailedCap..] == store[|store| + 1 - FailedCap..] + [item];
    r
  }

  /** Whatever holds of every stored entry and of the new item holds of
      every entry after `addFailed`. */
  lemma AddFailedKeeps<T>(store: seq<T>, item: T, p: T -> bool)
    requires forall j :: 0 <= j < |store| ==> p(store[j])
    requires p(item)
    ensures forall j :: 0 <= j < |AddFailed(store, item)| ==> p(AddFailed(store, item)[j])
  {
    var r := AddFailed(store, item);
    var all := store + [item];
    forall j | 0 <= j < |r| ensures p(r[j]) {
      SuffixIndex(all, FailedCap, j);
      var k := |all| - Min(|all|, FailedCap) + j;
      if k < |store| {
        assert all[k] == store[k];
      } else {
        assert all[k] == item;
      }
    }
  }

  /** The store after `addFailed` for each item in turn. */
  function AddAll<T>(store: seq<T>, items: seq<T>): seq<T>
    decreases |items|
  {
    if |items| == 0 then store else AddAll(AddFailed(store, items[0]), items[1..])
  }

  /** However many items fail, the store holds the newest ten of everything
      it has seen, oldest first. */
  lemma {:induction false} AddAllKeepsNewest<T>(store: seq<T>, items: seq<T>)
    requires |store| <= FailedCap
    ensures AddAll(store, items) == Last(store + items, FailedCap)
    decreases |items|
  {
    if |items| == 0 {
      assert store + items == store;
    } else {
      var next := AddFailed(store, items[0]);
      AddAllKeepsNewest(next, items[1..]);
      LastOfLast(store + [items[0]], items[1..], FailedCap);
      assert store + [items[0]] + items[1..] == store + items;
    }
  }

  /** Fifteen failures into an empty store leave the last ten of them. */
  lemma FifteenFailures<T>(items: seq<T>)
    requires |items| == 15
    ensures AddAll([], items) == items[5..]
  {
    AddAllKeepsNewest([], items);
    assert [] + items == items;
  }
}

=== FILE: retry.dfy ===
/** `transcribeWithRetry` of background.js: up to three attempts against
    the speech service, with backoff waits of 1000 ms and 2000 ms between
    them; a rate-limit answer is announced, waited out and retried without
    using up an attempt. The service is a script: the outcomes of successive
    requests, in order. Waits are recorded as events instead of elapsing. */
module Retry {
  import opened Wrappers
  import opened RetryDelay
  import opened Arith

  /** The error a failed request throws. `Network` is any `TypeError`: the
      one `fetch` throws on a network failure or a bad request header, or
      the one reading a 200 response throws when its `parts` is present but
      has no callable `map` (an object, a string, a number) or is an array
      holding a `null` or `undefined` entry. `ServiceError` is any other
      error: a non-2xx HTTP status, or a body that is not JSON. A 200
      response with no `candidates`, `content` or `parts` throws nothing:
      it is the transcript "(no text)". */
  datatype Failure = Network(message: string) | ServiceError(message: string)

  /** What one request to the service yields. */
  datatype Outcome =
    | Transcript(text: string)
    | RateLimited(body: ErrorBody)
    | Failed(failure: Failure)

  /** A status notice with its whole seconds, and the two kinds of wait. */
  datatype Event = Notice(secs: nat) | RateWait(ms: nat) | Backoff(ms: nat)

  datatype RetryResult =
    | Transcribed(text: string)
    | GaveUp(failure: Failure)
    /** The script ended before the loop did. */
    | OutOfScript

  datatype Attempt = Attempt(result: RetryResult, events: seq<Event>, used: nat)

  const MaxAttempts: nat := 3
  const FirstBackoffMs: nat := 1000

  /** `Math.max(1, Math.round(retryMs / 1000))` for a whole number of
      milliseconds: halves round up. */
  function NoticeSecs(ms: nat): (secs: nat)
    ensures secs >= 1
    ensures ms < 1500 ==> secs == 1
    ensures ms >= 500 ==> secs * 1000 - 500 <= ms < secs * 1000 + 500
  {
    var rounded := (ms + 500) / 1000;
    if rounded < 1 then 1 else rounded
  }

  /** The loop from attempt `i` with the current backoff `delay`. */
  function Loop(script: seq<Outcome>, i: nat, delay: nat): (r: Attempt)
    requires i < MaxAttempts
    ensures r.used <= |script|
    ensures r.result.OutOfScript? ==> r.used == |script|
    ensures r.result.Transcribed? ==> 1 <= r.used && script[r.used - 1] == Transcript(r.result.text)
    ensures r.result.GaveUp? ==> 1 <= r.used && script[r.used - 1] == Failed(r.result.failure)
    decreases |script|
  {
    if |script| == 0 then Attempt(OutOfScript, [], 0)
    else
      match script[0]
      case Transcript(t) => Attempt(Transcribed(t), [], 1)
      case RateLimited(body) =>
        var ms := ParseRetryDelayMs(body);
        var rest := Loop(script[1..], i, delay);
        Attempt(rest.result, [Notice(NoticeSecs(ms)), RateWait(ms)] + rest.events, rest.used + 1)
      case Failed(f) =>
        if i == MaxAttempts - 1 then Attempt(GaveUp(f), [], 1)
        else
          var rest := Loop(script[1..], i + 1, delay * 2);
          Attempt(rest.result, [Backoff(delay)] + rest.events, rest.used + 1)
  }

  /** `transcribeWithRetry(item)`. */
  function TranscribeWithRetry(script: seq<Outcome>): (r: Attempt)
    ensures r.used <= |script|
    ensures r.result.OutOfScript? ==> r.used == |script|
    ensures r.result.Transcribed? ==> 1 <= r.used && script[r.used - 1] == Transcript(r.result.text)
    ensures r.result.GaveUp? ==> 1 <= r.used && script[r.used - 1] == Failed(r.result.failure)
  {
    Loop(script, 0, FirstBackoffMs)
  }

  /** The requests that count as attempts: the script without its
      rate-limit answers. */
  function Attempts(script: seq<Outcome>): (f: seq<Outcome>)
    ensures |f| <= |script|
    ensures forall o :: o in f <==> o in script && !o.RateLimited?
  {
    if |script| == 0 then []
    else if script[0].RateLimited? then Attempts(script[1..])
    else [script[0]] + Attempts(script[1..])
  }

  /** Attempt `k` succeeds after `k` failed attempts. */
  predicate SucceedsAt(f: seq<Outcome>, k: nat)
  {
    k < |f| && f[k].Transcript? && forall j :: 0 <= j < k ==> f[j].Failed?
  }

  /** The first `m` attempts all fail. */
  predicate FailsAll(f: seq<Outcome>, m: nat)
  {
    m <= |f| && forall j :: 0 <= j < m ==> f[j].Failed?
  }

  /** The waits of the backoff schedule: `delay`, then doubled each time. */
  function Schedule(delay: nat, n: nat): seq<nat>
    decreases n
  {
    if n == 0 then [] else [delay] + Schedule(delay * 2, n - 1)
  }

  function Backoffs(events: seq<Event>): seq<nat>
  {
    if |events| == 0 then []
    else (if events[0].Backoff? then [events[0].ms] else []) + Backoffs(events[1..])
  }

  /** The events other than backoffs. */
  function RateEvents(events: seq<Event>): seq<Event>
  {
    if |events| == 0 then []
    else (if events[0].Backoff? then [] else [events[0]]) + RateEvents(events[1..])
  }

  /** For each rate-limit answer, a notice of the rounded seconds and then a
      wait of exactly the delay the error body asks for. */
  function RateLimitEvents(script: seq<Outcome>): seq<Event>
  {
    if |script| == 0 then []
    else
      (if script[0].RateLimited?
       then [Notice(NoticeSecs(ParseRetryDelayMs(script[0].body))), RateWait(ParseRetryDelayMs(script[0].body))]
       else [])
      + RateLimitEvents(script[1..])
  }

  lemma AttemptsCons(o: Outcome, rest: seq<Outcome>)
    ensures Attempts([o] + rest) == (if o.RateLimited? then [] else [o]) + Attempts(rest)
  {
    assert ([o] + rest)[1..] == rest;
  }

  /** The result of the loop from attempt `i` follows the policy stated
      over the attempts alone: success iff one of the first `3 - i` attempts
      succeeds after failures only, with that attempt's text; giving up iff
      all of them fail, with the last failure's error. */
  predicate PolicyHolds(script: seq<Outcome>, i: nat, delay: nat)
    requires i < MaxAttempts
  {
    var r := Loop(script, i, delay); var f := Attempts(script); var m := MaxAttempts - i;
    && (r.result.Transcribed? <==> exists k :: 0 <= k < m && SucceedsAt(f, k))
    && (forall k :: 0 <= k < m && SucceedsAt(f, k) ==> r.result == Transcribed(f[k].text))
    && (r.result.GaveUp? <==> FailsAll(f, m))
    && (FailsAll(f, m) ==> r.result == GaveUp(f[m - 1].failure))
  }

  lemma {:induction false} LoopPolicy(script: seq<Outcome>, i: nat, delay: nat)
    requires i < MaxAttempts
    ensures PolicyHolds(script, i, delay)
    decreases |script|
  {
    if |script| == 0 {
      assert forall k :: !SucceedsAt(Attempts(script), k);
    } else {
      var rest := script[1..];
      assert script == [script[0]] + rest;
      AttemptsCons(script[0], rest);
      match script[0]
      case Transcript(t) =>
        PolicyOnSuccess(script, i, delay);
      case RateLimited(_) =>
        LoopPolicy(rest, i, delay);
      case Failed(e) =>
        if i == MaxAttempts - 1 {
          ShiftFailed(Attempts(script), Attempts(rest));
        } else {
          LoopPolicy(rest, i + 1, delay * 2);
          PolicyOnFailure(script, i, delay);
        }
    }
  }

  lemma PolicyOnSuccess(script: seq<Outcome>, i: nat, delay: nat)
    requires |script| > 0 && script[0].Transcript? && i < MaxAttempts
    ensures PolicyHolds(script, i, delay)
  {
    SuccessFirst(script);
  }

  /** A script that opens with a transcript succeeds at its first attempt
      and at no other. */
  lemma SuccessFirst(script: seq<Outcome>)
    requires |script| > 0 && script[0].Transcript?
    ensures SucceedsAt(Attempts(script), 0) && forall k: nat :: 0 < k ==> !SucceedsAt(Attempts(script), k)
  {
    var f := Attempts(script);
    assert script == [script[0]] + script[1..];
    AttemptsCons(script[0], script[1..]);
    assert f[0] == script[0];
  }

  lemma PolicyOnFailure(script: seq<Outcome>, i: nat, delay: nat)
    requires |script| > 0 && script[0].Failed? && i < MaxAttempts - 1
    requires PolicyHolds(script[1..], i + 1, delay * 2)
    ensures PolicyHolds(script, i, delay)
  {
    var f, f' := Attempts(script), Attempts(script[1..]);
    var m := MaxAttempts - i;
    assert script == [script[0]] + script[1..];
    AttemptsCons(script[0], script[1..]);
    ShiftFailed(f, f');
    var r := Loop(script, i, delay);
    if exists k :: 0 <= k < m && SucceedsAt(f, k) {
      var k :| 0 <= k < m && SucceedsAt(f, k);
      assert SucceedsAt(f', k - 1);
    }
    if exists k :: 0 <= k < m - 1 && SucceedsAt(f', k) {
      var k :| 0 <= k < m - 1 && SucceedsAt(f', k);
      assert SucceedsAt(f, k + 1);
    }
    forall k | 0 <= k < m && SucceedsAt(f, k) ensures r.result == Transcribed(f[k].text) {
      assert SucceedsAt(f', k - 1) && f'[k - 1] == f[k];
    }
  }

  /** After a failed first attempt, attempt `k` is attempt `k - 1` of the rest. */
  lemma ShiftFailed(f: seq<Outcome>, f': seq<Outcome>)
    requires |f| > 0 && f[0].Failed? && f == [f[0]] + f'
    ensures !SucceedsAt(f, 0)
    ensures forall k: nat :: 0 < k ==> (SucceedsAt(f, k) <==> SucceedsAt(f', k - 1))
    ensures forall m: nat :: 0 < m ==> (FailsAll(f, m) <==> FailsAll(f', m - 1))
    ensures FailsAll(f, 1)
  {
    forall k: nat | 0 < k ensures SucceedsAt(f, k) <==> SucceedsAt(f', k - 1) {
      if SucceedsAt(f, k) {
        forall j | 0 <= j < k - 1 ensures f'[j].Failed? {
          assert f'[j] == f[j + 1];
        }
        assert f'[k - 1] == f[k];
      }
      if SucceedsAt(f', k - 1) {
        forall j | 0 <= j < k ensures f[j].Failed? {
          if j > 0 {
            assert f[j] == f'[j - 1];
          }
        }
        assert f[k] == f'[k - 1];
      }
    }
    forall m: nat | 0 < m ensures FailsAll(f, m) <==> FailsAll(f', m - 1) {
      if FailsAll(f, m) {
        forall j | 0 <= j < m - 1 ensures f'[j].Failed? {
          assert f'[j] == f[j + 1];
        }
      }
      if FailsAll(f', m - 1) {
        forall j | 0 <= j < m ensures f[j].Failed? {
          if j > 0 {
            assert f[j] == f'[j - 1];
          }
        }
      }
    }
  }

  lemma EventsCons(e: Event, es: seq<Event>)
    ensures Backoffs([e] + es) == (if e.Backoff? then [e.ms] else []) + Backoffs(es)
    ensures RateEvents([e] + es) == (if e.Backoff? then [] else [e]) + RateEvents(es)
  {
    assert ([e] + es)[1..] == es;
  }

  lemma RateLimitEventsCons(script: seq<Outcome>, n: nat)
    requires 0 < n <= |script|
    ensures RateLimitEvents(script[..n]) == RateLimitEvents([script[0]]) + RateLimitEvents(script[1..][..n - 1])
  {
    assert script[..n][1..] == script[1..][..n - 1];
    assert [script[0]][1..] == [];
  }

  /** The waits the loop asks for: the backoffs are the doubling schedule
      from `delay`, one per failed attempt that is not the last; the other
      events are a notice and a wait for each rate-limit answer consumed. */
  predicate WaitsHold(script: seq<Outcome>, i: nat, delay: nat)
    requires i < MaxAttempts
  {
    RateEventsHold(script, i, delay) && BackoffsHold(script, i, delay)
  }

  predicate RateEventsHold(script: seq<Outcome>, i: nat, delay: nat)
    requires i < MaxAttempts
  {
    var r := Loop(script, i, delay);
    RateEvents(r.events) == RateLimitEvents(script[..r.used])
  }

  predicate BackoffsHold(script: seq<Outcome>, i: nat, delay: nat)
    requires i < MaxAttempts
  {
    var r := Loop(script, i, delay); var f := Attempts(script); var m := MaxAttempts - i;
    var b := Backoffs(r.events);
    && b == Schedule(delay, |b|)
    && (r.result.GaveUp? ==> |b| == m - 1)
    && (r.result.OutOfScript? ==> |b| == |f|)
    && (forall k :: 0 <= k < m && SucceedsAt(f, k) ==> |b| == k)
  }

  lemma {:induction false} LoopWaits(script: seq<Outcome>, i: nat, delay: nat)
    requires i < MaxAttempts
    ensures WaitsHold(script, i, delay)
    decreases |script|
  {
    if |script| > 0 {
      var rest := script[1..];
      match script[0]
      case Transcript(t) =>
        WaitsOnSuccess(script, i, delay);
      case RateLimited(_) =>
        LoopWaits(rest, i, delay);
        RateEventsOnRateLimit(script, i, delay);
        BackoffsOnRateLimit(script, i, delay);
      case Failed(e) =>
        if i == MaxAttempts - 1 {
          WaitsOnLastFailure(script, delay);
        } else {
          LoopWaits(rest, i + 1, delay * 2);
          RateEventsOnFailure(script, i, delay);
          BackoffsOnFailure(script, i, delay);
        }
    }
  }

  lemma WaitsOnSuccess(script: seq<Outcome>, i: nat, delay: nat)
    requires |script| > 0 && script[0].Transcript? && i < MaxAttempts
    ensures WaitsHold(script, i, delay)
  {
    SuccessFirst(script);
    assert script[..1] == [script[0]];
    assert [script[0]][1..] == [];
  }

  lemma WaitsOnLastFailure(script: seq<Outcome>, delay: nat)
    requires |script| > 0 && script[0].Failed?
    ensures WaitsHold(script, MaxAttempts - 1, delay)
  {
    assert script[..1] == [script[0]];
    assert [script[0]][1..] == [];
    assert script == [script[0]] + script[1..];
    AttemptsCons(script[0], script[1..]);
  }

  lemma RateEventsOnRateLimit(script: seq<Outcome>, i: nat, delay: nat)
    requires |script| > 0 && script[0].RateLimited? && i < MaxAttempts
    requires RateEventsHold(script[1..], i, delay)
    ensures RateEventsHold(script, i, delay)
  {
    var r, r' := Loop(script, i, delay), Loop(script[1..], i, delay);
    var ms := ParseRetryDelayMs(script[0].body);
    assert r.events == [Notice(NoticeSecs(ms))] + ([RateWait(ms)] + r'.events);
    EventsCons(Notice(NoticeSecs(ms)), [RateWait(ms)] + r'.events);
    EventsCons(RateWait(ms), r'.events);
    RateLimitEventsCons(script, r.used);
  }

  lemma BackoffsOnRateLimit(script: seq<Outcome>, i: nat, delay: nat)
    requires |script| > 0 && script[0].RateLimited? && i < MaxAttempts
    requires BackoffsHold(script[1..], i, delay)
    ensures BackoffsHold(script, i, delay)
  {
    var r, r' := Loop(script, i, delay), Loop(script[1..], i, delay);
    var ms := ParseRetryDelayMs(script[0].body);
    assert r.events == [Notice(NoticeSecs(ms))] + ([RateWait(ms)] + r'.events);
    EventsCons(Notice(NoticeSecs(ms)), [RateWait(ms)] + r'.events);
    EventsCons(RateWait(ms), r'.events);
    assert script == [script[0]] + script[1..];
    AttemptsCons(script[0], script[1..]);
  }

  lemma RateEventsOnFailure(script: seq<Outcome>, i: nat, delay: nat)
    requires |script| > 0 && script[0].Failed? && i < MaxAttempts - 1
    requires RateEventsHold(script[1..], i + 1, delay * 2)
    ensures RateEventsHold(script, i, delay)
  {
    var r, r' := Loop(script, i, delay), Loop(script[1..], i + 1, delay * 2);
    assert r.events == [Backoff(delay)] + r'.events;
    EventsCons(Backoff(delay), r'.events);
    RateLimitEventsCons(script, r.used);
  }

  lemma BackoffsOnFailure(script: seq<Outcome>, i: nat, delay: nat)
    requires |script| > 0 && script[0].Failed? && i < MaxAttempts - 1
    requires BackoffsHold(script[1..], i + 1, delay * 2)
    ensures BackoffsHold(script, i, delay)
  {
    var r, r' := Loop(script, i, delay), Loop(script[1..], i + 1, delay * 2);
    var b' := Backoffs(r'.events);
    assert r.events == [Backoff(delay)] + r'.events;
    EventsCons(Backoff(delay), r'.events);
    assert Schedule(delay, |b'| + 1) == [delay] + Schedule(delay * 2, |b'|);
    SuccessAfterFailure(script, i, delay, |b'|);
  }

  /** The attempt counts behind `BackoffsOnFailure`: one failed attempt more
      than the rest of the script. */
  lemma SuccessAfterFailure(script: seq<Outcome>, i: nat, delay: nat, n: nat)
    requires |script| > 0 && script[0].Failed? && i < MaxAttempts - 1
    requires var r' := Loop(script[1..], i + 1, delay * 2); var f' := Attempts(script[1..]);
      && (r'.result.GaveUp? ==> n == MaxAttempts - i - 2)
      && (r'.result.OutOfScript? ==> n == |f'|)
      && (forall k :: 0 <= k < MaxAttempts - i - 1 && SucceedsAt(f', k) ==> n == k)
    ensures var r := Loop(script, i, delay); var f := Attempts(script);
      && (r.result.GaveUp? ==> n + 1 == MaxAttempts - i - 1)
      && (r.result.OutOfScript? ==> n + 1 == |f|)
      && (forall k :: 0 <= k < MaxAttempts - i && SucceedsAt(f, k) ==> n + 1 == k)
  {
    var f, f' := Attempts(script), Attempts(script[1..]);
    assert script == [script[0]] + script[1..];
    AttemptsCons(script[0], script[1..]);
    ShiftFailed(f, f');
    forall k | 0 <= k < MaxAttempts - i && SucceedsAt(f, k) ensures n + 1 == k {
      assert SucceedsAt(f', k - 1);
    }
  }

  /** Among the first `m` attempts, either all fail or one succeeds after
      failures only. */
  lemma {:induction false} FailOrSucceed(f: seq<Outcome>, m: nat)
    requires m <= |f| && forall j :: 0 <= j < |f| ==> !f[j].RateLimited?
    ensures FailsAll(f, m) || exists k :: 0 <= k < m && SucceedsAt(f, k)
    decreases m
  {
    if m > 0 && !FailsAll(f, m) {
      FailOrSucceed(f, m - 1);
      if FailsAll(f, m - 1) {
        assert SucceedsAt(f, m - 1);
      }
    }
  }

  /** `transcribeWithRetry` as a whole: a success within the first three
      attempts is returned with one backoff per earlier failure; three
      failures give up with the third error after waiting 1000 ms and
      2000 ms; the backoffs are never more than those two; and every
      rate-limit answer consumed is announced and waited out. */
  lemma RetryPolicy(script: seq<Outcome>)
    ensures TranscribeWithRetry(script).result.Transcribed? ==> exists k :: 0 <= k < MaxAttempts && SucceedsAt(Attempts(script), k)
    ensures (exists k :: 0 <= k < MaxAttempts && SucceedsAt(Attempts(script), k)) ==> TranscribeWithRetry(script).result.Transcribed?
    ensures var r, f := TranscribeWithRetry(script), Attempts(script);
      forall k :: 0 <= k < MaxAttempts && SucceedsAt(f, k) ==>
        r.result == Transcribed(f[k].text) && Backoffs(r.events) == [1000, 2000][..k]
    ensures var r := TranscribeWithRetry(script);
      r.result.GaveUp? <==> FailsAll(Attempts(script), MaxAttempts)
    ensures var r, f := TranscribeWithRetry(script), Attempts(script);
      FailsAll(f, MaxAttempts) ==> r.result == GaveUp(f[2].failure) && Backoffs(r.events) == [1000, 2000]
    ensures var r, f := TranscribeWithRetry(script), Attempts(script);
      r.result.OutOfScript? ==> |f| < MaxAttempts && Backoffs(r.events) == [1000, 2000][..|f|]
    ensures var r := TranscribeWithRetry(script);
      Backoffs(r.events) <= [1000, 2000] && RateEvents(r.events) == RateLimitEvents(script[..r.used])
  {
    var r := TranscribeWithRetry(script);
    var f := Attempts(script);
    LoopPolicy(script, 0, FirstBackoffMs);
    LoopWaits(script, 0, FirstBackoffMs);
    assert PolicyHolds(script, 0, FirstBackoffMs);
    assert RateEventsHold(script, 0, FirstBackoffMs) && BackoffsHold(script, 0, FirstBackoffMs);
    if r.result.OutOfScript? && |f| >= MaxAttempts {
      FailOrSucceed(f, MaxAttempts);
    }
    assert Schedule(1000, 0) == [1000, 2000][..0];
    assert Schedule(1000, 1) == [1000, 2000][..1];
    assert Schedule(1000, 2) == [1000, 2000][..2];
  }

  function RateLimits(bodies: seq<ErrorBody>): (s: seq<Outcome>)
    ensures |s| == |bodies| && forall j :: 0 <= j < |s| ==> s[j] == RateLimited(bodies[j])
  {
    seq(|bodies|, j requires 0 <= j < |bodies| => RateLimited(bodies[j]))
  }

  /** Any number of rate-limit answers before a success still succeed, in
      the same attempt: each is announced and waited out, nothing else is
      waited for, and exactly the answers up to the success are consumed. */
  lemma {:induction false} RateLimitedThenSuccess(bodies: seq<ErrorBody>, t: string, rest: seq<Outcome>, i: nat, delay: nat)
    requires i < MaxAttempts
    ensures var script := RateLimits(bodies) + [Transcript(t)] + rest;
      Loop(script, i, delay) == Attempt(Transcribed(t), RateLimitEvents(RateLimits(bodies)), |bodies| + 1)
    decreases |bodies|
  {
    var script := RateLimits(bodies) + [Transcript(t)] + rest;
    if |bodies| > 0 {
      RateLimitedThenSuccess(bodies[1..], t, rest, i, delay);
      assert script[1..] == RateLimits(bodies[1..]) + [Transcript(t)] + rest;
      assert RateLimits(bodies)[1..] == RateLimits(bodies[1..]);
    } else {
      assert script[0] == Transcript(t);
    }
  }

  /** The notice for a delay of `n` whole seconds shows `n` (at least 1). */
  lemma NoticeOfWholeSeconds(n: nat)
    ensures NoticeSecs(1000 * n) == if n == 0 then 1 else n
  {
    DivModUnique(1000 * n + 500, 1000, n, 500);
  }

  /** Three failed attempts give up with the third error, after the two
      backoffs. */
  lemma ThreeFailures(a: Failure, b: Failure, c: Failure, rest: seq<Outcome>)
    ensures TranscribeWithRetry([Failed(a), Failed(b), Failed(c)] + rest)
         == Attempt(GaveUp(c), [Backoff(1000), Backoff(2000)], 3)
  {
    var script := [Failed(a), Failed(b), Failed(c)] + rest;
    assert script[1..] == [Failed(b), Failed(c)] + rest;
    assert script[1..][1..] == [Failed(c)] + rest;
    assert Loop(script[1..][1..], 2, 4000) == Attempt(GaveUp(c), [], 1);
    assert Loop(script[1..], 1, 2000) == Attempt(GaveUp(c), [Backoff(2000)], 2);
  }
}

=== FILE: retry_delay.dfy ===
/** `parseRetryDelayMs` of background.js: how long a rate-limited request
    waits, read from the error body of a 429 response. The JSON body is
    taken as already parsed: either it did not parse, or it is the list of
    `error.details` entries (an absent list is the empty list). */
module RetryDelay {
  import opened Wrappers
  import opened Decimal

  /** One entry of `error.details`: its `@type` and its `retryDelay`. */
  datatype Detail = Detail(typ: Option<string>, retryDelay: Option<string>)

  datatype ErrorBody = Unparsable | Details(details: seq<Detail>)

  const FallbackMs: nat := 60000

  /** `String.prototype.includes`. */
  predicate Contains(s: string, pat: string)
    decreases |s|
  {
    if |s| < |pat| then false
    else s[..|pat|] == pat || Contains(s[1..], pat)
  }

  /** `(d['@type'] || '').includes('RetryInfo')`. */
  predicate IsRetryInfo(d: Detail)
  {
    Contains(d.typ.GetOr(""), "RetryInfo")
  }

  /** `details.find(...)`: the position of the first RetryInfo entry. */
  function FindRetryInfo(details: seq<Detail>): (r: Option<nat>)
    ensures r.Some? ==> r.value < |details| && IsRetryInfo(details[r.value])
    ensures r.Some? ==> forall j :: 0 <= j < r.value ==> !IsRetryInfo(details[j])
    ensures r.None? <==> forall j :: 0 <= j < |details| ==> !IsRetryInfo(details[j])
  {
    if |details| == 0 then None
    else if IsRetryInfo(details[0]) then Some(0)
    else
      match FindRetryInfo(details[1..])
      case None => None
      case Some(k) => Some(k + 1)
  }

  /** The end of the longest run of digits starting at `i`. */
  function RunEnd(s: string, i: nat): (j: nat)
    requires i <= |s|
    ensures i <= j <= |s| && AllDigits(s[i..j])
    ensures j == |s| || !IsDigit(s[j])
    decreases |s| - i
  {
    if i < |s| && IsDigit(s[i]) then
      var j := RunEnd(s, i + 1);
      assert s[i..j] == [s[i]] + s[i + 1..j];
      j
    else i
  }

  /** `s[i..j]` is a match of the pattern `(\d+)s` whose group is `s[i..j]`. */
  predicate SecondsAt(s: string, i: nat, j: nat)
  {
    i < j < |s| && AllDigits(s[i..j]) && s[j] == 's'
  }

  /** Greedy `\d+` followed by 's' leaves no choice of where the group ends. */
  lemma SecondsAtRunEnd(s: string, i: nat, j: nat)
    requires SecondsAt(s, i, j)
    ensures j == RunEnd(s, i)
  {
    RunEndOfDigits(s, i, j);
  }

  lemma {:induction false} RunEndOfDigits(s: string, i: nat, j: nat)
    requires i <= j < |s| && AllDigits(s[i..j]) && !IsDigit(s[j])
    ensures RunEnd(s, i) == j
    decreases j - i
  {
    if i < j {
      assert s[i..j][0] == s[i];
      assert s[i + 1..j] == s[i..j][1..];
      RunEndOfDigits(s, i + 1, j);
    }
  }

  /** The leftmost match at or after `from`, as `RegExp.prototype.exec`
      finds it: the start of the match and the end of its group. */
  function FirstMatch(s: string, from: nat): (r: Option<(nat, nat)>)
    requires from <= |s|
    ensures r.Some? ==> from <= r.value.0 && SecondsAt(s, r.value.0, r.value.1)
    ensures r.Some? ==> forall i, j :: from <= i < r.value.0 && SecondsAt(s, i, j) ==> false
    ensures r.None? ==> forall i, j :: from <= i && SecondsAt(s, i, j) ==> false
    decreases |s| - from
  {
    if from == |s| then None
    else
      var e := RunEnd(s, from);
      if from < e < |s| && s[e] == 's' then Some((from, e))
      else
        var r := FirstMatch(s, from + 1);
        assert forall j :: SecondsAt(s, from, j) ==> false by {
          forall j | SecondsAt(s, from, j) ensures false {
            SecondsAtRunEnd(s, from, j);
          }
        }
        r
  }

  /** The captured digits of `/(\d+)s/.exec(text)`, if it matches. */
  function SecondsGroup(text: string): (g: Option<string>)
    ensures g.Some? ==> |g.value| >= 1 && AllDigits(g.value)
  {
    match FirstMatch(text, 0)
    case None => None
    case Some((i, j)) => Some(text[i..j])
  }

  /** `parseRetryDelayMs(errorText)`: the whole seconds of the first
      `<digits>s` in the first RetryInfo entry's `retryDelay`, in
      milliseconds; 60 s when the body does not parse, has no RetryInfo
      entry, the entry has no (or an empty) delay, or the delay has no match. */
  function ParseRetryDelayMs(body: ErrorBody): (ms: nat)
    ensures body.Unparsable? ==> ms == FallbackMs
    ensures body.Details? && FindRetryInfo(body.details).None? ==> ms == FallbackMs
  {
    match body
    case Unparsable => FallbackMs
    case Details(details) =>
      match FindRetryInfo(details)
      case None => FallbackMs
      case Some(k) =>
        match details[k].retryDelay
        case None => FallbackMs
        case Some(r) =>
          if r == "" then FallbackMs
          else
            match SecondsGroup(r)
            case None => FallbackMs
            case Some(g) => DecimalValue(g) * 1000
  }

  /** The delay text of the entry `parseRetryDelayMs` reads. */
  function DelayText(body: ErrorBody): Option<string>
  {
    if body.Unparsable? then None
    else
      match FindRetryInfo(body.details)
      case None => None
      case Some(k) => body.details[k].retryDelay
  }

  /** The result is 1000 times the digits of a match when there is one, and
      the fallback exactly when there is none. */
  lemma ParseCases(body: ErrorBody)
    ensures var t := DelayText(body);
      if t.Some? && SecondsGroup(t.value).Some?
      then ParseRetryDelayMs(body) == 1000 * DecimalValue(SecondsGroup(t.value).value)
      else ParseRetryDelayMs(body) == FallbackMs
  {
    var t := DelayText(body);
    if t == Some("") {
      assert FirstMatch("", 0).None?;
    }
  }

  /** A delay written "<n>s" gives n seconds. */
  lemma {:induction false} WholeSeconds(details: seq<Detail>, n: nat)
    requires FindRetryInfo(details).Some?
    requires details[FindRetryInfo(details).value].retryDelay == Some(NatToString(n) + "s")
    ensures ParseRetryDelayMs(Details(details)) == 1000 * n
  {
    var t := NatToString(n) + "s";
    var e := |t| - 1;
    assert t[0..e] == NatToString(n);
    assert RunEnd(t, 0) == e by {
      SecondsAtRunEnd(t, 0, e);
    }
    assert FirstMatch(t, 0) == Some((0, e));
  }

  const SampleRetryType: string := "type.googleapis.com/google.rpc.RetryInfo"

  /** A fractional delay is not read as a fraction: the leftmost digit run
      followed by 's' is the fraction's digits, so "1.5s" waits 5 s. */
  lemma FractionalDelay()
    ensures ParseRetryDelayMs(Details([Detail(Some(SampleRetryType), Some("1.5s"))])) == 5000
  {
    var d := Detail(Some(SampleRetryType), Some("1.5s"));
    SampleIsRetryInfo();
    assert FindRetryInfo([d]) == Some(0);
    FractionalGroup();
    ParseOfGroup([d], 0, "1.5s", "5");
    assert DecimalValue("5") == 5;
  }

  lemma ParseOfGroup(details: seq<Detail>, k: nat, t: string, g: string)
    requires FindRetryInfo(details) == Some(k) && details[k].retryDelay == Some(t)
    requires t != "" && SecondsGroup(t) == Some(g)
    ensures ParseRetryDelayMs(Details(details)) == DecimalValue(g) * 1000
  {
  }

  lemma SampleIsRetryInfo()
    ensures IsRetryInfo(Detail(Some(SampleRetryType), Some("1.5s")))
  {
    assert SampleRetryType[31..40] == "RetryInfo";
    ContainsAt(SampleRetryType, "RetryInfo", 31);
  }

  /** In "1.5s" the first digit run followed by 's' is "5". */
  lemma FractionalGroup()
    ensures SecondsGroup("1.5s") == Some("5")
  {
    var t := "1.5s";
    assert RunEnd(t, 0) == 1;
    assert RunEnd(t, 2) == 3;
    assert FirstMatch(t, 0) == Some((2, 3));
    assert t[2..3] == "5";
  }

  lemma {:induction false} ContainsAt(s: string, pat: string, i: nat)
    requires i + |pat| <= |s| && s[i..i + |pat|] == pat
    ensures Contains(s, pat)
    decreases i
  {
    if i > 0 {
      assert s[1..][i - 1..i - 1 + |pat|] == s[i..i + |pat|];
      ContainsAt(s[1..], pat, i - 1);
    }
  }

  /** An entry before the RetryInfo entry, whatever its delay, is ignored. */
  lemma OnlyFirstRetryInfo(other: Detail, info: Detail, rest: seq<Detail>)
    requires !IsRetryInfo(other) && IsRetryInfo(info)
    ensures ParseRetryDelayMs(Details([other, info] + rest)) == ParseRetryDelayMs(Details([info]))
  {
    var ds := [other, info] + rest;
    assert ds[1..][0] == info;
  }
}

=== FILE: seqs.dfy ===
/** Small facts about integers and sequences shared by the modules. */
module Seqs {
  function Min(a: int, b: int): int { if a <= b then a else b }

  function Max0(a: int): nat { if a <= 0 then 0 else a }

  /** The last `n` elements of `xs` (all of them when there are fewer). */
  function Last<T>(xs: seq<T>, n: nat): seq<T>
  {
    if |xs| <= n then xs else xs[|xs| - n..]
  }

  lemma LastLength<T>(xs: seq<T>, n: nat)
    ensures |Last(xs, n)| == Min(|xs|, n)
  {
  }

  ghost predicate IsSuffix<T>(a: seq<T>, b: seq<T>)
  {
    |a| <= |b| && a == b[|b| - |a|..]
  }

  /** Trimming what has already been trimmed to `n`, after appending more,
      is the same as trimming the whole stream to `n`. */
  lemma LastOfLast<T>(xs: seq<T>, c: seq<T>, n: nat)
    ensures Last(Last(xs, n) + c, n) == Last(xs + c, n)
  {
    if |xs| > n {
      var t := xs[|xs| - n..];
      var lhs, rhs := Last(t + c, n), Last(xs + c, n);
      var m := Min(|t + c|, n);
      assert |lhs| == m == |rhs|;
      forall i | 0 <= i < m ensures lhs[i] == rhs[i] {
        SuffixIndex(t + c, n, i);
        SuffixIndex(xs + c, n, i);
      }
    }
  }

  lemma SuffixIndex<T>(xs: seq<T>, n: nat, i: nat)
    requires i < Min(|xs|, n)
    ensures Last(xs, n)[i] == xs[|xs| - Min(|xs|, n) + i]
  {
  }
}

=== FILE: sink.dfy ===
/** The side panel's `TRANSCRIPT_RESULT` listener. A text that starts with
    one of the three status marks is a status line: it is logged after the
    source tag and nothing is recorded. Any other text is a transcript: it
    is logged under a header with its number, source tag and time stamp,
    and one entry is appended to the transcript log, with the timing the
    message carries or, where it carries none, the timing of the window of
    that number. */
module Sink {
  import opened Wrappers
  import opened Decimal
  import opened Clock
  import opened Assembler
  import opened Messages
  import opened Wav
  import Worker
  import Capture

  /** One entry of `transcriptLog`. */
  datatype TranscriptRecord = TranscriptRecord(seqNo: int, startSec: int, endSec: int, source: string, text: string)

  /** What the listener changes: the text of the log pane and the
      transcript log. */
  datatype Panel = Panel(log: string, records: seq<TranscriptRecord>)

  const TranscriptMark: char := '\U{1F4DD}'   // memo

  /** `msg.source ? "[source] " : ""`. */
  function SourceTag(source: string): string
  {
    if source == "" then "" else "[" + source + "] "
  }

  /** The start and end the listener settles on: the message's own, or those
      of window `seq` (start `(seq - 1) * WINDOW_SEC`, lasting
      `OVERLAP_SEC + WINDOW_SEC`). */
  function Timing(windowSec: nat, msg: ResultMsg): (t: (int, int))
  {
    var start := if msg.startSec.Some? then msg.startSec.value else (msg.seqNo - 1) * windowSec;
    var end := if msg.endSec.Some? then msg.endSec.value else start + OverlapSec + windowSec;
    (start, end)
  }

  /** The entry a transcript message appends. */
  function Record(windowSec: nat, msg: ResultMsg): (e: TranscriptRecord)
    ensures e.seqNo == msg.seqNo && e.text == msg.text && e.source != ""
    ensures msg.source != "" ==> e.source == msg.source
    ensures msg.startSec.Some? ==> e.startSec == msg.startSec.value
    ensures msg.startSec.None? ==> e.startSec == (msg.seqNo - 1) * windowSec
    ensures msg.endSec.Some? ==> e.endSec == msg.endSec.value
    ensures msg.endSec.None? ==> e.endSec == e.startSec + OverlapSec + windowSec
  {
    var t := Timing(windowSec, msg);
    TranscriptRecord(msg.seqNo, t.0, t.1, SourceOr(Some(msg.source)), msg.text)
  }

  /** `[mm:ss–mm:ss]`. */
  function Stamp(start: int, end: int): string
  {
    "[" + FmtClock(start) + "\U{2013}" + FmtClock(end) + "]"
  }

  /** The text logged for a transcript, before `log` adds its newline. */
  function TranscriptLine(windowSec: nat, msg: ResultMsg): string
  {
    var t := Timing(windowSec, msg);
    [TranscriptMark] + " Transcript #" + IntToString(msg.seqNo) + " " + SourceTag(msg.source)
      + Stamp(t.0, t.1) + ":\n" + msg.text + "\n"
  }

  /** The side panel's `log`: the text, then a newline, after what the pane
      already shows. */
  function AppendLine(log: string, text: string): (r: string)
    ensures |r| == |log| + |text| + 1 && r[..|log|] == log && r[|r| - 1] == '\n'
  {
    log + text + "\n"
  }

  /** The listener, for one `TRANSCRIPT_RESULT`. */
  function Receive(windowSec: nat, p: Panel, msg: ResultMsg): (r: Panel)
    ensures IsStatusText(msg.text) ==> r.records == p.records
    ensures !IsStatusText(msg.text) ==> r.records == p.records + [Record(windowSec, msg)]
    ensures |r.log| > |p.log| && r.log[..|p.log|] == p.log && r.log[|r.log| - 1] == '\n'
  {
    if IsStatusText(msg.text) then
      Panel(AppendLine(p.log, SourceTag(msg.source) + msg.text), p.records)
    else
      Panel(AppendLine(p.log, TranscriptLine(windowSec, msg)), p.records + [Record(windowSec, msg)])
  }

  /** The listener over messages in the order they arrive. */
  function ReceiveAll(windowSec: nat, p: Panel, msgs: seq<ResultMsg>): Panel
    decreases |msgs|
  {
    if |msgs| == 0 then p else ReceiveAll(windowSec, Receive(windowSec, p, msgs[0]), msgs[1..])
  }

  /** The first message of `a` is received first, with or without `b` after. */
  lemma ReceiveFirst(windowSec: nat, p: Panel, a: seq<ResultMsg>, b: seq<ResultMsg>)
    requires |a| > 0
    ensures var q := Receive(windowSec, p, a[0]);
      && ReceiveAll(windowSec, p, a + b) == ReceiveAll(windowSec, q, a[1..] + b)
      && ReceiveAll(windowSec, p, a) == ReceiveAll(windowSec, q, a[1..])
  {
    assert (a + b)[0] == a[0];
    assert (a + b)[1..] == a[1..] + b;
  }

  lemma {:induction false} ReceiveAllAppend(windowSec: nat, p: Panel, a: seq<ResultMsg>, b: seq<ResultMsg>)
    ensures ReceiveAll(windowSec, p, a + b) == ReceiveAll(windowSec, ReceiveAll(windowSec, p, a), b)
    decreases |a|
  {
    if |a| > 0 {
      ReceiveFirst(windowSec, p, a, b);
      ReceiveAllAppend(windowSec, Receive(windowSec, p, a[0]), a[1..], b);
    } else {
      assert a + b == b;
    }
  }

  /** Status lines never reach the transcript log, however many arrive. */
  lemma {:induction false} StatusNotRecorded(windowSec: nat, p: Panel, msgs: seq<ResultMsg>)
    requires forall j :: 0 <= j < |msgs| ==> IsStatusText(msgs[j].text)
    ensures ReceiveAll(windowSec, p, msgs).records == p.records
    decreases |msgs|
  {
    if |msgs| > 0 {
      StatusNotRecorded(windowSec, Receive(windowSec, p, msgs[0]), msgs[1..]);
    }
  }

  /** Everything the worker sends for one item adds at most one entry: none
      for its rate-limit notices, none for the offline and failure results,
      and one, for the item, when the service's transcript is delivered and
      does not itself start with a status mark. */
  lemma ItemRecords(windowSec: nat, p: Panel, r: Worker.Report)
    ensures var after := ReceiveAll(windowSec, p, Worker.Sent(r)).records;
      if r.final.Delivered? && !IsStatusText(r.final.text)
      then after == p.records + [Record(windowSec, Worker.Tag(r.item, r.final.text))]
      else after == p.records
  {
    var ms := Worker.Sent(r);
    var k := |r.notices|;
    var last := Worker.Tag(r.item, Worker.FinalText(r.final));
    assert ms == ms[..k] + [last];
    forall j | 0 <= j < k ensures IsStatusText(ms[..k][j].text) {
      WorkerTextsAreStatus(r.notices[j], "");
    }
    StatusNotRecorded(windowSec, p, ms[..k]);
    ReceiveAllAppend(windowSec, p, ms[..k], [last]);
    WorkerTextsAreStatus(0, if r.final.FailedFinal? then r.final.message else "");
    var mid := ReceiveAll(windowSec, p, ms[..k]);
    assert ReceiveAll(windowSec, mid, [last]) == Receive(windowSec, mid, last);
  }

  /** A window cut on either capture path, sent, and delivered with a
      transcript that is not a status text, ends up in the transcript log
      with the window's number, the path's name and the window's own span. */
  lemma WindowToRecord(cfg: Config, w: Window<Int16>, source: string, p: Panel, notices: seq<nat>, text: string)
    requires source != "" && !IsStatusText(text)
    ensures var item := Worker.ItemOf(Capture.WindowMessage(w, cfg.sampleRate, source));
      ReceiveAll(cfg.windowSec, p, Worker.Sent(Worker.Report(item, notices, Worker.Delivered(text)))).records
        == p.records + [TranscriptRecord(w.id, w.startSec, w.endSec, source, text)]
  {
    var item := Worker.ItemOf(Capture.WindowMessage(w, cfg.sampleRate, source));
    ItemRecords(cfg.windowSec, p, Worker.Report(item, notices, Worker.Delivered(text)));
  }

  /** A message without timing gets the span the capture step gave the
      window of that number. */
  lemma DefaultTimingIsWindowSpan<T>(cfg: Config, b: Buffers<T>, chunk: seq<T>, source: string, text: string)
    requires Step(cfg, b, chunk).emitted.Some?
    ensures var w := Step(cfg, b, chunk).emitted.value;
      Timing(cfg.windowSec, ResultMsg(w.id, source, None, None, text)) == (w.startSec, w.endSec)
  {
  }

  /** A transcript the service returns that happens to start with a status
      mark is logged as a status line and never recorded. */
  lemma MarkedTranscriptDropped(windowSec: nat, p: Panel, item: Worker.Item, notices: seq<nat>, rest: string)
    ensures var text := [FailedMark] + rest;
      ReceiveAll(windowSec, p, Worker.Sent(Worker.Report(item, notices, Worker.Delivered(text)))).records == p.records
  {
    ItemRecords(windowSec, p, Worker.Report(item, notices, Worker.Delivered([FailedMark] + rest)));
  }
}

=== FILE: wav.dfy ===
/** `encodeWav` of sidepanel.js: a canonical 44-byte RIFF/WAVE header
    (Microsoft RIFF WAVE format: a "fmt " chunk with PCM format tag 1, one
    channel, 16 bits per sample) followed by the samples as little-endian
    16-bit two's-complement integers. Samples here are already quantised to
    16 bits. `DecodeWav` is the reading side, written as the partner the
    encoder is proved against. */
module Wav {
  import opened Wrappers
  import opened Bytes
  import opened Arith

  /** A quantised sample, the value `setInt16` stores. */
  type Int16 = x: int | -0x8000 <= x < 0x8000

  const HeaderSize: nat := 44

  /** `DataView.setUint32` stores its argument modulo 2^32. */
  function U32(v: int): (r: int)
    ensures 0 <= r < 0x1_0000_0000
    ensures (v - r) % 0x1_0000_0000 == 0
    ensures 0 <= v < 0x1_0000_0000 ==> r == v
  {
    DivModUnique(v - v % 0x1_0000_0000, 0x1_0000_0000, v / 0x1_0000_0000, 0);
    v % 0x1_0000_0000
  }

  /** Two's-complement bit pattern of a 16-bit sample. */
  function U16(x: Int16): (r: int)
    ensures 0 <= r < 0x10000
  {
    if x < 0 then x + 0x10000 else x
  }

  function LE16(v: int): (r: seq<Byte>)
    requires 0 <= v < 0x10000
    ensures |r| == 2
  {
    [v % 256, v / 256]
  }

  function LE32(v: int): (r: seq<Byte>)
    requires 0 <= v < 0x1_0000_0000
    ensures |r| == 4
  {
    [v % 256, (v / 256) % 256, (v / 256 / 256) % 256, v / 256 / 256 / 256]
  }

  function ReadU16(b: seq<Byte>, off: nat): int
    requires off + 2 <= |b|
  {
    b[off] as int + 256 * (b[off + 1] as int)
  }

  function ReadU32(b: seq<Byte>, off: nat): int
    requires off + 4 <= |b|
  {
    var b0, b1, b2, b3 := b[off] as int, b[off + 1] as int, b[off + 2] as int, b[off + 3] as int;
    b0 + 256 * (b1 + 256 * (b2 + 256 * b3))
  }

  /** `DataView.getInt16(off, true)`. */
  function ReadI16(b: seq<Byte>, off: nat): Int16
    requires off + 2 <= |b|
  {
    var u := ReadU16(b, off);
    if u >= 0x8000 then u - 0x10000 else u
  }

  /** The four-letter chunk tags, as the ASCII codes `writeStr` stores. */
  const Riff: seq<Byte> := [0x52, 0x49, 0x46, 0x46]   // "RIFF"
  const Wave: seq<Byte> := [0x57, 0x41, 0x56, 0x45]   // "WAVE"
  const Fmt: seq<Byte> := [0x66, 0x6d, 0x74, 0x20]    // "fmt "
  const Data: seq<Byte> := [0x64, 0x61, 0x74, 0x61]   // "data"

  /** The 44 header bytes for `n` samples at `sampleRate`, field by field
      at the offsets `encodeWav` writes them to. */
  function Header(n: nat, sampleRate: nat): (r: seq<Byte>)
    ensures |r| == HeaderSize
  {
    Layout(LE32(U32(36 + n * 2)), LE32(U32(sampleRate)), LE32(U32(sampleRate * 2)), LE32(U32(n * 2)))
  }

  /** The header with its four variable 32-bit fields already encoded: the
      RIFF chunk header (12 bytes), the "fmt " chunk (24 bytes) and the
      "data" chunk header (8 bytes). */
  function Layout(riffSize: seq<Byte>, rate: seq<Byte>, byteRate: seq<Byte>, dataSize: seq<Byte>): (r: seq<Byte>)
    requires |riffSize| == |rate| == |byteRate| == |dataSize| == 4
    ensures |r| == HeaderSize
    ensures r[0..4] == Riff && r[4..8] == riffSize && r[8..12] == Wave && r[12..16] == Fmt
    ensures r[16..20] == [16, 0, 0, 0] && r[20..22] == [1, 0] && r[22..24] == [1, 0]
    ensures r[24..28] == rate && r[28..32] == byteRate
    ensures r[32..34] == [2, 0] && r[34..36] == [16, 0]
    ensures r[36..40] == Data && r[40..44] == dataSize
  {
    var riff := Riff + riffSize + Wave;
    var fmt := Fmt + [16, 0, 0, 0] + [1, 0] + [1, 0] + rate + byteRate + [2, 0] + [16, 0];
    var data := Data + dataSize;
    var r := riff + fmt + data;
    assert r[0..12] == riff && r[12..36] == fmt && r[36..44] == data;
    assert riff[0..4] == Riff && riff[4..8] == riffSize && riff[8..12] == Wave;
    assert fmt[0..4] == Fmt && fmt[4..8] == [16, 0, 0, 0] && fmt[8..10] == [1, 0] && fmt[10..12] == [1, 0];
    assert fmt[12..16] == rate && fmt[16..20] == byteRate && fmt[20..22] == [2, 0] && fmt[22..24] == [16, 0];
    assert data[0..4] == Data && data[4..8] == dataSize;
    r
  }

  /** `floatTo16BitPCM` on quantised samples: two little-endian bytes each. */
  function EncodeSamples(xs: seq<Int16>): (r: seq<Byte>)
    ensures |r| == 2 * |xs|
    ensures forall i :: 0 <= i < |xs| ==> ReadI16(r, 2 * i) == xs[i]
  {
    if |xs| == 0 then []
    else
      var rest := EncodeSamples(xs[1..]);
      var r := LE16(U16(xs[0])) + rest;
      assert forall i :: 1 <= i < |xs| ==> ReadI16(r, 2 * i) == ReadI16(rest, 2 * (i - 1));
      r
  }

  /** `encodeWav(samples, sampleRate)`. */
  function EncodeWav(xs: seq<Int16>, sampleRate: nat): (r: seq<Byte>)
    ensures |r| == HeaderSize + 2 * |xs|
    ensures r[0..4] == Riff && r[8..12] == Wave
    ensures r[12..16] == Fmt && r[36..40] == Data
    ensures ReadU32(r, 4) == U32(36 + 2 * |xs|)
    ensures ReadU32(r, 16) == 16
    ensures ReadU16(r, 20) == 1 && ReadU16(r, 22) == 1
    ensures ReadU32(r, 24) == U32(sampleRate) && ReadU32(r, 28) == U32(2 * sampleRate)
    ensures ReadU16(r, 32) == 2 && ReadU16(r, 34) == 16
    ensures ReadU32(r, 40) == U32(2 * |xs|)
    ensures forall i :: 0 <= i < |xs| ==> ReadI16(r, HeaderSize + 2 * i) == xs[i]
  {
    var h := Header(|xs|, sampleRate);
    var body := EncodeSamples(xs);
    HeaderFields(|xs|, sampleRate);
    var r := h + body;
    assert r[..HeaderSize] == h;
    assert forall i :: 0 <= i < |xs| ==> ReadI16(r, HeaderSize + 2 * i) == ReadI16(body, 2 * i);
    r
  }

  /** What a reader of the header finds in each field. */
  lemma HeaderFields(n: nat, sampleRate: nat)
    ensures var h := Header(n, sampleRate);
      && h[0..4] == Riff && h[8..12] == Wave
      && h[12..16] == Fmt && h[36..40] == Data
      && ReadU32(h, 4) == U32(36 + 2 * n)
      && ReadU32(h, 16) == 16
      && ReadU16(h, 20) == 1 && ReadU16(h, 22) == 1
      && ReadU32(h, 24) == U32(sampleRate) && ReadU32(h, 28) == U32(2 * sampleRate)
      && ReadU16(h, 32) == 2 && ReadU16(h, 34) == 16
      && ReadU32(h, 40) == U32(2 * n)
  {
    var h := Header(n, sampleRate);
    ReadField(h, 4, U32(36 + n * 2));
    ReadField(h, 24, U32(sampleRate));
    ReadField(h, 28, U32(sampleRate * 2));
    ReadField(h, 40, U32(n * 2));
  }

  lemma ReadField(b: seq<Byte>, off: nat, v: int)
    requires 0 <= v < 0x1_0000_0000 && off + 4 <= |b| && b[off..off + 4] == LE32(v)
    ensures ReadU32(b, off) == v
  {
    assert b[off] == LE32(v)[0] && b[off + 1] == LE32(v)[1];
    assert b[off + 2] == LE32(v)[2] && b[off + 3] == LE32(v)[3];
  }

  /** The samples of a sample area whose length is even. */
  function DecodeSamples(b: seq<Byte>): (xs: seq<Int16>)
    requires |b| % 2 == 0
    ensures |xs| == |b| / 2
  {
    if |b| == 0 then [] else [ReadI16(b, 0)] + DecodeSamples(b[2..])
  }

  /** The sample rate and samples of a WAVE buffer, provided its 44 header
      bytes are exactly those `encodeWav` writes for its length and the rate
      it declares. */
  datatype Pcm = Pcm(sampleRate: nat, samples: seq<Int16>)

  function DecodeWav(b: seq<Byte>): Option<Pcm>
  {
    if |b| < HeaderSize || (|b| - HeaderSize) % 2 != 0 then None
    else
      var n := (|b| - HeaderSize) / 2;
      var rate := ReadU32(b, 24);
      if b[..HeaderSize] == Header(n, rate) then Some(Pcm(rate, DecodeSamples(b[HeaderSize..])))
      else None
  }

  lemma {:induction false} SamplesRoundTrip(xs: seq<Int16>)
    ensures DecodeSamples(EncodeSamples(xs)) == xs
    decreases |xs|
  {
    if |xs| > 0 {
      var b := EncodeSamples(xs);
      assert b[2..] == EncodeSamples(xs[1..]);
      SamplesRoundTrip(xs[1..]);
    }
  }

  lemma {:induction false} SamplesOfDecoded(b: seq<Byte>)
    requires |b| % 2 == 0
    ensures EncodeSamples(DecodeSamples(b)) == b
    decreases |b|
  {
    if |b| > 0 {
      var xs := DecodeSamples(b);
      assert xs[1..] == DecodeSamples(b[2..]);
      SamplesOfDecoded(b[2..]);
      PairRoundTrip(b[0], b[1]);
      assert b == [b[0], b[1]] + b[2..];
    }
  }

  lemma PairRoundTrip(lo: Byte, hi: Byte)
    ensures LE16(U16(ReadI16([lo, hi], 0))) == [lo, hi]
  {
  }

  /** Decoding an encoded buffer recovers the sample count, the sample rate
      and every sample (the rate must fit the 32-bit field). */
  lemma WavRoundTrip(xs: seq<Int16>, sampleRate: nat)
    requires sampleRate < 0x1_0000_0000
    ensures DecodeWav(EncodeWav(xs, sampleRate)) == Some(Pcm(sampleRate, xs))
  {
    var b := EncodeWav(xs, sampleRate);
    EncodeWavSplits(xs, sampleRate);
    DivModUnique(sampleRate, 0x1_0000_0000, 0, sampleRate);
    DecodeLaidOut(b, xs, sampleRate);
  }

  /** The decoder on a buffer made of a header and an encoded sample area. */
  lemma DecodeLaidOut(b: seq<Byte>, xs: seq<Int16>, sampleRate: nat)
    requires |b| == HeaderSize + 2 * |xs| && ReadU32(b, 24) == sampleRate
    requires b[..HeaderSize] == Header(|xs|, sampleRate) && b[HeaderSize..] == EncodeSamples(xs)
    ensures DecodeWav(b) == Some(Pcm(sampleRate, xs))
  {
    DivModUnique(|b| - HeaderSize, 2, |xs|, 0);
    SamplesRoundTrip(xs);
  }

  lemma EncodeWavSplits(xs: seq<Int16>, sampleRate: nat)
    ensures var b := EncodeWav(xs, sampleRate);
      b[..HeaderSize] == Header(|xs|, sampleRate) && b[HeaderSize..] == EncodeSamples(xs)
  {
  }

  /** Conversely, every buffer the decoder accepts is exactly what the
      encoder writes for the samples and rate it decodes to. */
  lemma DecodedReencodes(b: seq<Byte>)
    requires DecodeWav(b).Some?
    ensures EncodeWav(DecodeWav(b).value.samples, DecodeWav(b).value.sampleRate) == b
  {
    var p := DecodeWav(b).value;
    var n := (|b| - HeaderSize) / 2;
    SamplesOfDecoded(b[HeaderSize..]);
    assert b == b[..HeaderSize] + b[HeaderSize..];
  }
}

=== FILE: worker.dfy ===
/** The delivery queue of background.js: `TRANSCRIBE_CHUNK` enqueues an
    item and starts the processing loop only if the queue was empty;
    `processQueue` takes the head item through `transcribeWithRetry` and
    sends exactly one final result for it; an item whose last error is a
    `TypeError` is parked in the offline store; `PROCESS_STORED`
    moves the stored items back to the queue, the patched `queue.push`
    decoding their base64 bytes. Each message handler and each item's
    processing is one atomic step. */
module Worker {
  import opened Wrappers
  import opened Bytes
  import opened Seqs
  import opened Messages
  import opened Retry
  import opened RetryDelay
  import Base64
  import OfflineStore

  /** A queue entry: `{ seq, mime, bytes, source, startSec, endSec }`. */
  datatype Item = Item(
    seqNo: int, mime: string, payload: Payload,
    source: string, startSec: Option<int>, endSec: Option<int>)

  /** The worker: the live queue, the offline store, how many processing
      loops are running, the service's remaining answers, the results sent,
      and the waits and notices requested, in order. */
  datatype State = State(
    queue: seq<Item>, store: seq<Item>, loops: nat,
    service: seq<Outcome>, outbox: seq<ResultMsg>, events: seq<Event>)

  /** The object `TRANSCRIBE_CHUNK` pushes. */
  function ItemOf(msg: ChunkMsg): (it: Item)
    ensures it.seqNo == msg.seqNo && it.mime == msg.mime && it.payload == msg.payload
    ensures it.source == SourceOr(msg.source) && it.startSec == msg.startSec && it.endSec == msg.endSec
  {
    Item(msg.seqNo, msg.mime, msg.payload, SourceOr(msg.source), msg.startSec, msg.endSec)
  }

  /** What the patched `queue.push` does to one item: string bytes are
      decoded (`base64ToArrayBuffer`), binary bytes are kept. `None` when
      the string does not decode, which makes the push throw. */
  function Restore(item: Item): (r: Option<Item>)
    ensures r.Some? ==> r.value.payload.Binary? && r.value == item.(payload := r.value.payload)
    ensures item.payload.Binary? ==> r == Some(item)
    ensures item.payload.Encoded? ==>
      match Base64.Decode(item.payload.text)
      case None => r.None?
      case Some(b) => r == Some(item.(payload := Binary(b)))
  {
    match item.payload
    case Binary(_) => Some(item)
    case Encoded(t) =>
      match Base64.Decode(t)
      case None => None
      case Some(b) => Some(item.(payload := Binary(b)))
  }

  /** The form `addFailed` stores: the item with its bytes in base64. */
  function Stored(item: Item): (s: Item)
    requires item.payload.Binary?
    ensures s.payload.Encoded? && s == item.(payload := s.payload)
  {
    item.(payload := Encoded(Base64.Encode(item.payload.bytes)))
  }

  /** A stored item comes back from the store exactly as it went in. */
  lemma StoredRestores(item: Item)
    requires item.payload.Binary?
    ensures Restore(Stored(item)) == Some(item)
  {
    Base64.RoundTrip(item.payload.bytes);
  }

  /** `if (queue.length === 1) processQueue()` after a push, or the
      corresponding test after a replay: a loop started on an empty queue
      ends at once. */
  function StartLoop(loops: nat, queue: seq<Item>): (n: nat)
    ensures n == loops || n == loops + 1
    ensures n == loops + 1 <==> |queue| > 0
  {
    if |queue| > 0 then loops + 1 else loops
  }

  /** The `TRANSCRIBE_CHUNK` handler. */
  function Enqueue(w: State, msg: ChunkMsg): (r: State)
    ensures Restore(ItemOf(msg)).Some? ==> r.queue == w.queue + [Restore(ItemOf(msg)).value]
    ensures msg.payload.Binary? ==> r.queue == w.queue + [ItemOf(msg)]
    ensures Restore(ItemOf(msg)).None? ==> r == w
    ensures r.loops == if |w.queue| == 0 && r.queue != w.queue then w.loops + 1 else w.loops
    ensures r.store == w.store && r.service == w.service && r.outbox == w.outbox && r.events == w.events
  {
    match Restore(ItemOf(msg))
    case None => w
    case Some(it) =>
      var q := w.queue + [it];
      w.(queue := q, loops := if |q| == 1 then w.loops + 1 else w.loops)
  }

  datatype Pushed = Pushed(queue: seq<Item>, ok: bool)

  /** `for (const it of failed) queue.push(it)`: each push decodes its item;
      a push that throws ends the handler, the earlier pushes kept. */
  function PushAll(queue: seq<Item>, items: seq<Item>): (r: Pushed)
    ensures r.ok ==> |r.queue| == |queue| + |items| && r.queue[..|queue|] == queue
    ensures r.ok ==> forall j :: 0 <= j < |items| ==> Restore(items[j]) == Some(r.queue[|queue| + j])
    ensures r.ok <==> forall j :: 0 <= j < |items| ==> Restore(items[j]).Some?
    decreases |items|
  {
    if |items| == 0 then Pushed(queue, true)
    else
      match Restore(items[0])
      case None => Pushed(queue, false)
      case Some(it) =>
        var r := PushAll(queue + [it], items[1..]);
        assert forall j :: 1 <= j < |items| ==> items[j] == items[1..][j - 1];
        r
  }

  /** The `PROCESS_STORED` handler: read the store, clear it, push the
      stored items back in stored order, and start the loop only if the
      queue then holds exactly the replayed items. */
  function Replay(w: State): (r: State)
    ensures r.store == [] && r.service == w.service && r.outbox == w.outbox && r.events == w.events
    ensures PushAll(w.queue, w.store).ok ==> |r.queue| == |w.queue| + |w.store| && r.queue[..|w.queue|] == w.queue
    ensures PushAll(w.queue, w.store).ok ==>
      forall j :: 0 <= j < |w.store| ==> Restore(w.store[j]) == Some(r.queue[|w.queue| + j])
    ensures r.loops == if PushAll(w.queue, w.store).ok && |w.queue| == 0 && |w.store| > 0 then w.loops + 1 else w.loops
  {
    var failed := w.store;
    var p := PushAll(w.queue, failed);
    var loops := if p.ok && |p.queue| == |failed| then StartLoop(w.loops, p.queue) else w.loops;
    w.(queue := p.queue, store := [], loops := loops)
  }

  /** How one item ends: its transcript, parked offline, or failed. */
  datatype Final = Delivered(text: string) | StoredOffline | FailedFinal(message: string)

  /** What processing one item sent: the notices' seconds and its final. */
  datatype Report = Report(item: Item, notices: seq<nat>, final: Final)

  datatype Processed = Processed(next: State, report: Report)

  /** A result message tagged with the item's `seq`, `source` and timing. */
  function Tag(item: Item, text: string): (m: ResultMsg)
    ensures m.seqNo == item.seqNo && m.source == item.source && m.startSec == item.startSec
    ensures m.endSec == item.endSec && m.text == text
  {
    ResultMsg(item.seqNo, item.source, item.startSec, item.endSec, text)
  }

  function FinalText(f: Final): string
  {
    match f
    case Delivered(t) => t
    case StoredOffline => StoredText
    case FailedFinal(m) => FailedText(m)
  }

  /** The seconds of the notices among the events. */
  function Notices(events: seq<Event>): seq<nat>
  {
    if |events| == 0 then []
    else (if events[0].Notice? then [events[0].secs] else []) + Notices(events[1..])
  }

  lemma {:induction false} NoticesAppend(a: seq<Event>, b: seq<Event>)
    ensures Notices(a + b) == Notices(a) + Notices(b)
    decreases |a|
  {
    if |a| == 0 {
      assert a + b == b;
    } else {
      var h := if a[0].Notice? then [a[0].secs] else [];
      assert (a + b)[0] == a[0];
      assert (a + b)[1..] == a[1..] + b;
      NoticesAppend(a[1..], b);
      assert Notices(a + b) == h + Notices(a[1..] + b);
      assert Notices(a) == h + Notices(a[1..]);
    }
  }

  /** Backoffs carry no notice. */
  lemma {:induction false} NoticesOfRateEvents(e: seq<Event>)
    ensures Notices(e) == Notices(RateEvents(e))
    decreases |e|
  {
    if |e| > 0 {
      NoticesOfRateEvents(e[1..]);
      var head := if e[0].Backoff? then [] else [e[0]];
      assert RateEvents(e) == head + RateEvents(e[1..]);
      NoticesAppend(head, RateEvents(e[1..]));
    }
  }

  /** The announced seconds of each rate-limit answer of `script`, in order:
      `Math.max(1, Math.round(retryMs / 1000))` of its error body's delay. */
  function RateLimitSecs(script: seq<Outcome>): (secs: seq<nat>)
    ensures |secs| <= |script|
    decreases |script|
  {
    if |script| == 0 then []
    else
      (if script[0].RateLimited? then [NoticeSecs(ParseRetryDelayMs(script[0].body))] else [])
      + RateLimitSecs(script[1..])
  }

  lemma {:induction false} NoticesOfRateLimits(script: seq<Outcome>)
    ensures Notices(RateLimitEvents(script)) == RateLimitSecs(script)
    decreases |script|
  {
    if |script| > 0 {
      NoticesOfRateLimits(script[1..]);
      var head := if script[0].RateLimited?
        then [Notice(NoticeSecs(ParseRetryDelayMs(script[0].body))), RateWait(ParseRetryDelayMs(script[0].body))]
        else [];
      assert RateLimitEvents(script) == head + RateLimitEvents(script[1..]);
      NoticesAppend(head, RateLimitEvents(script[1..]));
      if script[0].RateLimited? {
        assert Notices(head) == [NoticeSecs(ParseRetryDelayMs(script[0].body))] by {
          assert head[1..] == [RateWait(ParseRetryDelayMs(script[0].body))];
          assert head[1..][1..] == [];
        }
      }
    }
  }

  /** The notices the worker sends for an item are exactly one per
      rate-limit answer its retry loop consumed, announcing that answer's
      rounded delay. */
  lemma AdvanceNotices(w: State)
    requires |w.queue| > 0 ==> w.queue[0].payload.Binary?
    requires Advance(w).Some?
    ensures var a := TranscribeWithRetry(w.service);
      Advance(w).value.report.notices == RateLimitSecs(w.service[..a.used])
  {
    var a := TranscribeWithRetry(w.service);
    RetryPolicy(w.service);
    NoticesOfRateEvents(a.events);
    NoticesOfRateLimits(w.service[..a.used]);
  }

  /** Everything one item's processing sends: a notice per rate-limit
      answer, then one final result. */
  function Sent(r: Report): (ms: seq<ResultMsg>)
    ensures |ms| == |r.notices| + 1
    ensures forall j :: 0 <= j < |r.notices| ==> ms[j] == Tag(r.item, NoticeText(r.notices[j]))
    ensures ms[|ms| - 1] == Tag(r.item, FinalText(r.final))
  {
    seq(|r.notices|, j requires 0 <= j < |r.notices| => Tag(r.item, NoticeText(r.notices[j])))
      + [Tag(r.item, FinalText(r.final))]
  }

  /** The final for the outcome of the retry loop, if it finished. */
  function FinalOf(result: RetryResult): Option<Final>
  {
    match result
    case Transcribed(t) => Some(Delivered(t))
    case GaveUp(Network(_)) => Some(StoredOffline)
    case GaveUp(ServiceError(m)) => Some(FailedFinal(m))
    case OutOfScript => None
  }

  /** One iteration of `processQueue` on the head item. Enabled when a loop
      is running, the queue is non-empty and the service's script lasts
      until the retry loop finishes. */
  function Advance(w: State): (r: Option<Processed>)
    requires |w.queue| > 0 ==> w.queue[0].payload.Binary?
    ensures r.Some? ==> |w.queue| > 0 && w.loops > 0
    ensures r.Some? ==> r.value.report.item == w.queue[0] && r.value.next.queue == w.queue[1..]
    ensures r.Some? ==> r.value.next.outbox == w.outbox + Sent(r.value.report)
    ensures r.Some? ==> Some(r.value.report.final) == FinalOf(TranscribeWithRetry(w.service).result)
    ensures r.Some? && r.value.report.final.StoredOffline? ==> r.value.next.store == OfflineStore.AddFailed(w.store, Stored(w.queue[0]))
    ensures r.Some? && !r.value.report.final.StoredOffline? ==> r.value.next.store == w.store
    ensures r.Some? ==> r.value.next.loops == if |w.queue| == 1 then w.loops - 1 else w.loops
    ensures r.Some? ==> var a := TranscribeWithRetry(w.service);
      && r.value.report.notices == Notices(a.events)
      && r.value.next.service == w.service[a.used..]
      && r.value.next.events == w.events + a.events
    ensures |w.queue| > 0 && w.loops > 0 && !TranscribeWithRetry(w.service).result.OutOfScript? ==> r.Some?
  {
    if |w.queue| == 0 || w.loops == 0 then None
    else
      var item := w.queue[0];
      var a := TranscribeWithRetry(w.service);
      match FinalOf(a.result)
      case None => None
      case Some(final) =>
        var store := if final.StoredOffline? then OfflineStore.AddFailed(w.store, Stored(item)) else w.store;
        var report := Report(item, Notices(a.events), final);
        var rest := w.queue[1..];
        var next := State(
          rest, store, if |rest| == 0 then w.loops - 1 else w.loops,
          w.service[a.used..], w.outbox + Sent(report), w.events + a.events);
        Some(Processed(next, report))
  }

  /** The invariant of the worker: a loop runs iff the queue is non-empty
      (so never two), live items hold binary bytes, and the store is within
      its cap and holds only entries that decode. */
  predicate Valid(w: State)
  {
    && w.loops == (if |w.queue| > 0 then 1 else 0)
    && (forall j :: 0 <= j < |w.queue| ==> w.queue[j].payload.Binary?)
    && |w.store| <= OfflineStore.FailedCap
    && (forall j :: 0 <= j < |w.store| ==> Restore(w.store[j]).Some?)
  }

  function Initial(service: seq<Outcome>): (w: State)
    ensures Valid(w)
  {
    State([], [], 0, service, [], [])
  }

  lemma EnqueueValid(w: State, msg: ChunkMsg)
    requires Valid(w)
    ensures Valid(Enqueue(w, msg))
  {
  }

  /** From a valid state every stored entry decodes, so a replay pushes all
      of them, restored, after the live items. */
  lemma ReplayValid(w: State)
    requires Valid(w)
    ensures PushAll(w.queue, w.store).ok
    ensures Valid(Replay(w))
    ensures var r := Replay(w);
      forall j :: 0 <= j < |w.store| ==> Restore(w.store[j]) == Some(r.queue[|w.queue| + j])
  {
    var r := Replay(w);
    forall j | 0 <= j < |r.queue| ensures r.queue[j].payload.Binary? {
      if j < |w.queue| {
        assert r.queue[j] == r.queue[..|w.queue|][j];
      } else {
        assert Restore(w.store[j - |w.queue|]) == Some(r.queue[j]);
      }
    }
  }

  /** Parking an item keeps every stored entry decodable. */
  lemma ParkedDecodable(store: seq<Item>, item: Item)
    requires item.payload.Binary?
    requires forall j :: 0 <= j < |store| ==> Restore(store[j]).Some?
    ensures var s := OfflineStore.AddFailed(store, Stored(item));
      forall j :: 0 <= j < |s| ==> Restore(s[j]).Some?
  {
    StoredRestores(item);
    OfflineStore.AddFailedKeeps(store, Stored(item), (it: Item) => Restore(it).Some?);
  }

  lemma AdvanceValid(w: State)
    requires Valid(w) && Advance(w).Some?
    ensures Valid(Advance(w).value.next)
  {
    var p := Advance(w).value;
    if p.report.final.StoredOffline? {
      ParkedDecodable(w.store, w.queue[0]);
    }
    assert forall j :: 0 <= j < |p.next.queue| ==> p.next.queue[j] == w.queue[j + 1];
  }

  /** An item parked offline comes back, with its original bytes, at the
      end of the queue on the next replay. */
  lemma ParkedItemReturns(w: State)
    requires Valid(w) && Advance(w).Some? && Advance(w).value.report.final.StoredOffline?
    ensures var next := Advance(w).value.next; var r := Replay(next);
      |r.queue| == |next.queue| + |next.store| && r.queue[|r.queue| - 1] == w.queue[0]
  {
    var next := Advance(w).value.next;
    AdvanceValid(w);
    assert next.store[|next.store| - 1] == Stored(w.queue[0]);
    ReplayReturnsLast(next, w.queue[0]);
  }

  /** A replay puts the item stored last at the end of the queue. */
  lemma ReplayReturnsLast(w: State, item: Item)
    requires Valid(w) && item.payload.Binary?
    requires |w.store| > 0 && w.store[|w.store| - 1] == Stored(item)
    ensures var r := Replay(w);
      |r.queue| == |w.queue| + |w.store| && r.queue[|r.queue| - 1] == item
  {
    var r := Replay(w);
    ReplayValid(w);
    var s := w.store;
    assert Restore(s[|s| - 1]) == Some(r.queue[|w.queue| + |s| - 1]);
    StoredRestores(item);
  }

  /** How an item ends depends only on its answered attempts: it is parked
      offline exactly when three attempts failed and the third with a
      `TypeError`, it fails with the service's message exactly when
      the third failed with a service error, and otherwise its transcript
      is delivered. */
  lemma ItemOutcome(w: State)
    requires |w.queue| > 0 ==> w.queue[0].payload.Binary?
    requires Advance(w).Some?
    ensures var f, fin := Attempts(w.service), Advance(w).value.report.final;
      && (fin.StoredOffline? <==> FailsAll(f, MaxAttempts) && f[2].failure.Network?)
      && (fin.FailedFinal? <==> FailsAll(f, MaxAttempts) && f[2].failure.ServiceError?)
      && (fin.FailedFinal? ==> fin.message == f[2].failure.message)
      && (fin.Delivered? <==> !FailsAll(f, MaxAttempts))
  {
    RetryPolicy(w.service);
  }

  /** Every message the processing of the reports sent, in order. */
  function SentAll(reports: seq<Report>): seq<ResultMsg>
  {
    if |reports| == 0 then [] else Sent(reports[0]) + SentAll(reports[1..])
  }

  datatype Drained = Drained(last: State, reports: seq<Report>)

  /** What draining `w` for up to `n` iterations promises: a valid state;
      one report per processed item, the items taken from the front of the
      queue in order; every message sent being the reports' notices and
      finals, in order; and stopping early only on an empty queue or an
      exhausted script. */
  predicate DrainSpec(w: State, n: nat, d: Drained)
  {
    && Valid(d.last)
    && |d.reports| <= n && |d.reports| <= |w.queue|
    && d.last.queue == w.queue[|d.reports|..]
    && (forall j :: 0 <= j < |d.reports| ==> d.reports[j].item == w.queue[j])
    && d.last.outbox == w.outbox + SentAll(d.reports)
    && (|d.reports| < n && |d.last.queue| > 0 ==> TranscribeWithRetry(d.last.service).result.OutOfScript?)
  }

  /** Up to `n` iterations of `processQueue`, stopping early when the queue
      empties or the service's script runs out. */
  function Drain(w: State, n: nat): (d: Drained)
    requires Valid(w)
    ensures DrainSpec(w, n, d)
    decreases n
  {
    if n == 0 then Drained(w, [])
    else
      match Advance(w)
      case None => Drained(w, [])
      case Some(p) =>
        AdvanceValid(w);
        var d := Drain(p.next, n - 1);
        DrainCons(w, n, p, d);
        Drained(d.last, [p.report] + d.reports)
  }

  lemma DrainCons(w: State, n: nat, p: Processed, d: Drained)
    requires n > 0 && |w.queue| > 0
    requires p.report.item == w.queue[0] && p.next.queue == w.queue[1..]
    requires p.next.outbox == w.outbox + Sent(p.report)
    requires DrainSpec(p.next, n - 1, d)
    ensures DrainSpec(w, n, Drained(d.last, [p.report] + d.reports))
  {
    var reports := [p.report] + d.reports;
    var k := |reports|;
    assert reports[1..] == d.reports;
    assert SentAll(reports) == Sent(p.report) + SentAll(d.reports);
    calc {
      d.last.outbox;
      p.next.outbox + SentAll(d.reports);
      (w.outbox + Sent(p.report)) + SentAll(d.reports);
      { SeqAssoc(w.outbox, Sent(p.report), SentAll(d.reports)); }
      w.outbox + SentAll(reports);
    }
    forall j | 0 <= j < k ensures reports[j].item == w.queue[j] {
      if j > 0 {
        assert reports[j] == d.reports[j - 1];
        assert p.next.queue[j - 1] == w.queue[j];
      }
    }
    assert w.queue[k..] == p.next.queue[|d.reports|..];
  }

  lemma SeqAssoc<T>(a: seq<T>, b: seq<T>, c: seq<T>)
    ensures (a + b) + c == a + (b + c)
  {
  }
}

=== FILE: wrappers.dfy ===
/** Optional values: the model's stand-in for JavaScript's `null`/`undefined`
    and for operations that can throw. */
module Wrappers {

  datatype Option<+T> = None | Some(value: T) {

    /** Returns the value in Some, or `default` when None. */
    function GetOr(default: T): T {
      match this
      case Some(v) => v
      case None => default
    }
  }
}
